=== FILE: README.md ===
# MythTV database utilities and Ogg Vorbis tag rewriting, in Dafny

This project models two parts of MythTV.

The first is `DBUtil` in libmythbase. It covers:

- the DBMS version probe and its comparison with a wanted version;
- the new-database test;
- the backup-in-progress test over the two recorded backup times;
- the backup driver, which tries the site's backup script and falls back to a built-in `mysqldump` run;
- the parser of CHECK TABLE / REPAIR TABLE replies, and the check and repair built on it;
- the client count;
- the schema lock.

The second is MythMusic's Ogg Vorbis comment handling. It covers:

- the rewrite of a file's comment list from a track's metadata;
- the lookup of a single comment;
- reading a track's metadata;
- writing the rewritten comments back over the file.

Database queries, settings, the clock, the file system and child processes do not appear directly. Each one becomes an input that carries its outcome: the rows a query returns, whether a connection is up, a command's exit status, the names a directory lists. Side effects of the backup driver are recorded as a trace of events:

- settings saved;
- credential files created and deleted, with their contents as structured values that `CredentialText` renders;
- processes run, as the program and the arguments that shape their command line, which `CommandLine` renders;
- the housekeeping row written.

Files:

- `wrappers.dfy`: `Option`.
- `text.dfy`: ASCII text helpers. These are `QString::find`/`left`, case mapping, decimal padding and printing, and C `atoi`.
- `dbms_version.dfy`: `GetDBMSVersion`, `QueryDBMSVersion`, `ParseDBMSVersion`, `CompareDBMSVersion`.
- `table_health.dfy`: `CheckRepairStatus`, `CheckTables`, `RepairTables`, `GetTables`, `IsNewDatabase`, `CountClients`, `lockSchema`, `unlockSchema`.
- `backup_time.dfy`: `IsBackupInProgress`, the two date formats the backup uses, `CreateBackupFilename`.
- `backup.dfy`: `GetBackupDirectory`, `CreateTemporaryDBConf`, both `DoBackup`s, `BackupDB`. Each `DoBackup` asks the storage group for the backup directory itself, so the script and the built-in dump each see the group as it is when they start, and the two can be given different directories.
- `vorbis_comment.dfy`: `getRawVorbisComment`, `getComment` over libvorbis's `vorbis_comment_query`, `read`, `write`.

Where the code and its documentation disagree, the model follows the code:

- `IsBackupInProgress` treats a run with no end as live while it is under 600 seconds old (`< 600`). A run whose end is earlier than its start stays live up to and including 600 seconds (`> 600` is the stale test). The documentation says "less than 10 minutes" for both.
- `CheckTables` reports success when the table listing is empty. That includes a listing query that failed.
- `CheckRepairStatus` appends the name of the last row read, not the last table seen. For a non-empty reply the two are the same.
- `write` returns failure even when the new comments were stored; see Findings. The documentation promises success or failure according to the outcome.

## Model

| member | source | states |
|---|---|---|
| DbmsVersion.ParseDBMSVersion | mythtv/libs/libmythbase/dbutil.cpp:768-795 | the three components are the first three runs of ASCII decimal digits in the version string, -1 where there are fewer runs or a run exceeds an int; success exactly when a major component was found |
| DbmsVersion.CompareVersions | mythtv/libs/libmythbase/dbutil.cpp:68-77 | the loop gives 0 exactly when every component agrees (an absent component agrees with a requested 0); otherwise it gives the difference of the first component that disagrees, major before minor before point |
| DbmsVersion.CompareIsLexicographic | mythtv/libs/libmythbase/dbutil.cpp:62-77 | for parsed versions and non-negative requests, the sign of the result is the ordinary lexicographic order, an absent component counting as 0 |
| DbmsVersion.CompareCachedVersion | mythtv/libs/libmythbase/dbutil.cpp:62-77 | stored components with a major version are reused without querying; the result is the unknown-version value while no major version is known, and otherwise the comparison of the stored components |
| DbmsVersion.CompareDBMSVersion | mythtv/libs/libmythbase/dbutil.cpp:62-78 | kUnknownVersionNumber when no major version can be parsed, otherwise the loop's first nonzero difference |
| DbmsVersion.CompareWithOwnVersion | mythtv/libs/libmythbase/dbutil.cpp:62-78 | a version compared with its own parsed triple gives 0 |
| DbmsVersion.ParsedVersionRange | mythtv/libs/libmythbase/dbutil.cpp:777-788 | each parsed component is -1 or a value an int holds |
| DbmsVersion.UnknownSentinelCollides | mythtv/libs/libmythbase/dbutil.cpp:62-78 | server version "5" compared with (5, INT_MAX, 0) yields INT_MIN, the same value as "unknown" |
| DbmsVersion.CompareVersion | mythtv/libs/libmythbase/dbutil.cpp:50-78 | the comparison with "unknown" kept apart from every difference: unknown exactly when no major version parses; the difference is 0 exactly when all components agree |
| DbmsVersion.CompareDBMSVersionEncodes | mythtv/libs/libmythbase/dbutil.cpp:62-78 | the integer result is INT_MIN exactly when the version is unknown or the difference is INT_MIN; otherwise it is the difference |
| DbmsVersion.QueryDBMSVersion | mythtv/libs/libmythbase/dbutil.cpp:739-763 | a non-empty override setting wins; otherwise the server's reply is stored, and a failed query leaves the string empty; success exactly when the string is non-empty; the parsed numbers are untouched |
| DbmsVersion.GetDBMSVersion | mythtv/libs/libmythbase/dbutil.cpp:43-48 | a cached non-empty string is returned without a query; an empty one is replaced by the query's answer |
| DbmsVersion.ParseCachedVersion | mythtv/libs/libmythbase/dbutil.cpp:768-795 | the string is queried only when empty; the cached numbers are the parse of the cached string; success exactly when the string is non-empty and has a major component |
| DbmsVersion.CachedCompareMatchesUncached | mythtv/libs/libmythbase/dbutil.cpp:62-78 | the cached comparison equals the comparison of the (possibly freshly queried) string, keeps the cache consistent, and leaves a parsed cache unchanged |
| TableHealth.CheckRepairStatus | mythtv/libs/libmythbase/dbutil.cpp:378-412 | the scan over the reply rows returns exactly the tables whose run of rows ends in a failed verdict, in order |
| TableHealth.CrashedTables | mythtv/libs/libmythbase/dbutil.cpp:360-377 | at most one name per reply row |
| TableHealth.RunOkIsLastVerdict | mythtv/libs/libmythbase/dbutil.cpp:367-370 | a table is OK exactly when its last status or error row is "status OK", or it has none |
| TableHealth.FinalStatusOkClears | mythtv/libs/libmythbase/dbutil.cpp:401-403 | a final "status OK" row clears every earlier error for that table |
| TableHealth.OtherRowsChangeNothing | mythtv/libs/libmythbase/dbutil.cpp:402-406 | info and warning rows change no verdict |
| TableHealth.ContinueRun | mythtv/libs/libmythbase/dbutil.cpp:392-406 | a row for the current table updates only that table's pending verdict |
| TableHealth.StartRun | mythtv/libs/libmythbase/dbutil.cpp:392-400 | a row for a new table settles the previous table's verdict |
| TableHealth.ApplyRow | mythtv/libs/libmythbase/dbutil.cpp:402-406 | one row's effect on the pending verdict; rows that are neither status nor error leave it alone |
| TableHealth.RepairTables | mythtv/libs/libmythbase/dbutil.cpp:332-358 | success exactly when there is a connection and a reply that names no crashed table |
| TableHealth.CheckTables | mythtv/libs/libmythbase/dbutil.cpp:278-313 | false without a connection; true when there are no MyISAM tables; true when the check names no crashed table; with crashed tables, a repair is requested only when asked for and then for exactly the crashed tables, and the result is that repair's result |
| TableHealth.GetTables | mythtv/libs/libmythbase/dbutil.cpp:419-448 | the listed names, or none when the connection or the query fails |
| TableHealth.FailedListingLooksEmpty | mythtv/libs/libmythbase/dbutil.cpp:83-91 | a failed table listing makes the database look new and makes a connected table check succeed |
| TableHealth.IsNewDatabase | mythtv/libs/libmythbase/dbutil.cpp:83-91 | no tables is new, two or more is not, and one table is new exactly when its name ends in .`schemalock` |
| TableHealth.SingleTableNewIffSchemaLock | mythtv/libs/libmythbase/dbutil.cpp:83-91 | a database with one table is new exactly when that table is `schemalock` |
| TableHealth.SeveralTablesNotNew | mythtv/libs/libmythbase/dbutil.cpp:83-91 | a database with two or more tables is never new |
| TableHealth.CountClients | mythtv/libs/libmythbase/dbutil.cpp:800-838 | 0 without a connection or process list; otherwise the number of connections to this database divided by 4, rounded up |
| TableHealth.LockSchema | mythtv/libs/libmythbase/dbutil.cpp:846-866 | the lock is taken exactly when both statements succeed; the lock is attempted only after the create succeeded; nothing is unlocked |
| TableHealth.UnlockSchema | mythtv/libs/libmythbase/dbutil.cpp:868-873 | issues UNLOCK TABLES and takes no lock |
| TableHealth.LockSessionEndsUnlocked | mythtv/libs/libmythbase/dbutil.cpp:846-873 | a lock followed by an unlock, whatever the outcomes, ends with UNLOCK TABLES and issues it exactly once |
| BackupTime.IsBackupInProgress | mythtv/libs/libmythbase/dbutil.cpp:97-175 | running needs a start time no more than 600 s ago and no end at or after the start; with no end, running exactly when under 600 s old; with an end before the start, running exactly when at most 600 s old |
| BackupTime.InProgressEarlier | mythtv/libs/libmythbase/dbutil.cpp:97-175 | a backup in progress now was also in progress at every earlier moment |
| BackupTime.StallBoundary | mythtv/libs/libmythbase/dbutil.cpp:118-169 | at exactly 600 s a run with no end is stale while a run with an earlier end is still live |
| BackupTime.InProgressExamples | mythtv/libs/libmythbase/dbutil.cpp:97-175 | 5 minutes after start with no end: running; 15 minutes: not; ended after starting: not; ended before starting, 2 minutes ago: running; no start: not |
| BackupTime.CompactRoundTrip | mythtv/libs/libmythbase/dbutil.cpp:464-465 | the 14-digit yyyyMMddhhmmss text of a valid time parses back to that time |
| BackupTime.CompactParseInverse | mythtv/libs/libmythbase/dbutil.cpp:464-465 | a text that parses as a 14-digit time is exactly the text of that time |
| BackupTime.SettingRoundTrip | mythtv/libs/libmythbase/dbutil.cpp:109-112 | a saved "yyyy-MM-dd hh:mm:ss" time, with spaces turned into T, reads back as ISO date to the same time and seconds |
| BackupTime.SettingSeconds | mythtv/libs/libmythbase/dbutil.cpp:99-115 | an empty setting means no recorded time |
| BackupTime.DateSettingIsMidnight | mythtv/libs/libmythbase/dbutil.cpp:109-112 | a setting holding only a yyyy-MM-dd date reads, as Qt::ISODate takes it, as the midnight that starts the date |
| BackupTime.DateSettingExample | mythtv/libs/libmythbase/dbutil.cpp:109-112 | the setting 2024-03-05 is a recorded time, not an absent one |
| BackupTime.StampSecondsEpoch | mythtv/libs/libmythbase/dbutil.cpp:118 | the seconds count agrees with the Unix epoch at 1970-01-01 00:00:00 |
| BackupTime.StampSecondsSample | mythtv/libs/libmythbase/dbutil.cpp:118 | 2024-01-02 03:04:05 is 1704164645 seconds after the epoch |
| BackupTime.BackupFilenameParts | mythtv/libs/libmythbase/dbutil.cpp:462-467 | the file name is the prefix, a hyphen, 14 digits that parse back to the time, then the extension |
| BackupTime.CreateBackupFilename | mythtv/libs/libmythbase/dbutil.cpp:462-467 | the name is the prefix, a hyphen, 14 digits and the extension, in that order |
| BackupTime.BackupFilenameInjective | mythtv/libs/libmythbase/dbutil.cpp:462-467 | two different times never give the same file name |
| BackupTime.BackupFilenameExample | mythtv/libs/libmythbase/dbutil.cpp:453-466 | prefix "mydb-1005", ".sql", 2024-01-02 03:04:05 gives "mydb-1005-20240102030405.sql" |
| Backup.GetBackupDirectory | mythtv/libs/libmythbase/dbutil.cpp:478-503 | the directory with most free space when the group lists directories and it exists, /tmp otherwise |
| Backup.FirstWithPrefix | mythtv/libs/libmythbase/dbutil.cpp:609-633 | the result begins with the suggested file name and no earlier listed name does; none exactly when no name does |
| Backup.RotateArgument | mythtv/libs/libmythbase/dbutil.cpp:562-569 | the rotate line is rotate=-1 or empty, and rotate=-1 when there are no script arguments |
| Backup.RotateArgumentExample | mythtv/libs/libmythbase/dbutil.cpp:564-568 | arguments naming ROTATE in capitals suppress the default |
| Backup.ScriptBackup | mythtv/libs/libmythbase/dbutil.cpp:555-642 | success exactly when the script exits 0; failure sets __FAILED__; on success the file name is the directory as `QDir` reports it, a slash, and a listed name that begins with the suggested name, or empty exactly when none does; no setting is saved |
| Backup.QDirPath | mythtv/libs/libmythbase/dbutil.cpp:609-624 | the directory `QDir` reports is "." for an empty path and otherwise the path with at most one trailing slash dropped, never dropping the root's |
| Backup.QDirPathExamples | mythtv/libs/libmythbase/dbutil.cpp:609-624 | a backup directory with a trailing slash reports the same file name as without; an empty one reports ./name |
| Backup.ScriptBackupTrace | mythtv/libs/libmythbase/dbutil.cpp:582-596 | exactly one process, the script with its arguments and the credential file's path (empty when it could not be written); when the file was written the trace is: write it, run the script, delete it; every process pointed at the file runs while it is on disk; no credential file is left |
| Backup.CompressProgram | mythtv/libs/libmythbase/dbutil.cpp:657-665 | /bin/gzip when it exists, else /usr/bin/gzip when that exists, else no compressor |
| Backup.PortArgument | mythtv/libs/libmythbase/dbutil.cpp:678-680 | no port option exactly when the port is not positive |
| Backup.PortArgumentRoundTrip | mythtv/libs/libmythbase/dbutil.cpp:678-680 | a positive port is passed as --port='N' and reads back as that port |
| Backup.BuiltinBackup | mythtv/libs/libmythbase/dbutil.cpp:650-733 | without a credential file nothing runs and the result is failure; success exactly when the credential file exists and mysqldump exits 0; a failed dump sets __FAILED__; no setting is saved |
| Backup.BuiltinFilename | mythtv/libs/libmythbase/dbutil.cpp:709-731 | a successful dump is reported as the dump path, with .gz exactly when a compressor exists and succeeded |
| Backup.BuiltinBackupTrace | mythtv/libs/libmythbase/dbutil.cpp:671-713 | the credential file holds the password; the trace is: write it, run mysqldump, delete it, then the compressor after a good dump; mysqldump runs while its option file is on disk; no credential file is left |
| Backup.AttemptsInPlace | mythtv/libs/libmythbase/dbutil.cpp:582-596 | across both strategies, every process pointed at a credential file runs after that file is written and before it is deleted |
| Backup.CredentialsInPlaceThroughout | mythtv/libs/libmythbase/dbutil.cpp:202-264 | the same holds for the whole backup run, saved settings and housekeeping included |
| Backup.BackupDB | mythtv/libs/libmythbase/dbutil.cpp:193-265 | Disabled exactly when the setting is nonzero; EmptyDB exactly when enabled and the database is new; a skipped backup does nothing; otherwise the start time is saved first |
| Backup.UnreachableDatabaseSkipped | mythtv/libs/libmythbase/dbutil.cpp:83-91 | when the table listing fails the database counts as new and the backup is skipped |
| Backup.BackupCompletedIff | mythtv/libs/libmythbase/dbutil.cpp:224-264 | Completed exactly when the script exists and succeeds or the built-in dump succeeds; Failed otherwise |
| Backup.FailedFilename | mythtv/libs/libmythbase/dbutil.cpp:195-264 | a failed backup reports an empty file name or __FAILED__ |
| Backup.AttemptCommands | mythtv/libs/libmythbase/dbutil.cpp:231-240 | the script runs when it exists; the built-in dump runs exactly when the script is absent or failed and the credential file was created |
| Backup.BackupCommands | mythtv/libs/libmythbase/dbutil.cpp:224-259 | the commands of a backup are those of its attempts |
| Backup.NoCredentialsLeft | mythtv/libs/libmythbase/dbutil.cpp:592-596 | every credential file created during a backup is deleted by its end |
| Backup.AttemptsTidy | mythtv/libs/libmythbase/dbutil.cpp:582-596 | each strategy deletes the credential file it created before returning |
| Backup.PasswordNotInCommands | mythtv/libs/libmythbase/dbutil.cpp:505-512 | the password is never passed to a process: changing it changes neither the processes run nor their command lines |
| Backup.SavedRunTimes | mythtv/libs/libmythbase/dbutil.cpp:227-244 | after a backup attempt the start and end settings hold the recorded start and end times |
| Backup.WorkBetweenSavedTimes | mythtv/libs/libmythbase/dbutil.cpp:224-259 | every command and option file of a backup lies strictly between saving the start time and saving the end time; only the housekeeping row follows the end time |
| Backup.NotInProgressAfterRun | mythtv/libs/libmythbase/dbutil.cpp:97-175 | once a backup has recorded an end time no earlier than its start, IsBackupInProgress reports no backup in progress, whatever the current time |
| VorbisComment.KeepUnmanaged | mythplugins/mythmusic/mythmusic/metaiooggvorbiscomment.cpp:57-74 | the kept entries are all preserved ones, never more than the input |
| VorbisComment.KeepUnmanagedMembers | mythplugins/mythmusic/mythmusic/metaiooggvorbiscomment.cpp:57-74 | an entry survives the filter exactly when it was present and is not a managed tag |
| VorbisComment.KeepUnmanagedAppend | mythplugins/mythmusic/mythmusic/metaiooggvorbiscomment.cpp:57-85 | the filter works entry by entry and keeps the order |
| VorbisComment.PreservedEntry | mythplugins/mythmusic/mythmusic/metaiooggvorbiscomment.cpp:59-73 | an entry NAME=value is kept exactly when NAME is non-empty and, upper-cased, is not a managed tag |
| VorbisComment.LowerCaseTagRemoved | mythplugins/mythmusic/mythmusic/metaiooggvorbiscomment.cpp:64-69 | a managed tag written in lower case, artist=x, is removed |
| VorbisComment.OtherTagKept | mythplugins/mythmusic/mythmusic/metaiooggvorbiscomment.cpp:64-72 | a COMMENT=… entry is kept |
| VorbisComment.EmptyNameNotPreserved | mythplugins/mythmusic/mythmusic/metaiooggvorbiscomment.cpp:61-62 | an entry starting with '=' is removed |
| VorbisComment.TrackText | mythplugins/mythmusic/mythmusic/metaiooggvorbiscomment.cpp:124-125 | the track number text is at most 8 characters |
| VorbisComment.RawVorbisComment | mythplugins/mythmusic/mythmusic/metaiooggvorbiscomment.cpp:35-130 | no result exactly when there is no metadata |
| VorbisComment.RewriteMembers | mythplugins/mythmusic/mythmusic/metaiooggvorbiscomment.cpp:50-127 | the rewritten list holds exactly the kept existing entries and the managed entries |
| VorbisComment.RewriteIdempotent | mythplugins/mythmusic/mythmusic/metaiooggvorbiscomment.cpp:50-127 | rewriting a rewritten list with the same metadata changes nothing |
| VorbisComment.ExclusiveRewriteOnlyManaged | mythplugins/mythmusic/mythmusic/metaiooggvorbiscomment.cpp:192-198 | rewriting an emptied list leaves only managed tags |
| VorbisComment.RewriteHasNoDoublers | mythplugins/mythmusic/mythmusic/metaiooggvorbiscomment.cpp:52-53 | each managed tag appears once when its field is set and not at all otherwise, whatever the file held before |
| VorbisComment.QueryComment | mythplugins/mythmusic/mythmusic/metaiooggvorbiscomment.cpp:363-364 | no answer exactly when no entry starts with the label and '=' in any letter case |
| VorbisComment.GetComment | mythplugins/mythmusic/mythmusic/metaiooggvorbiscomment.cpp:357-370 | the empty string when there is no comment block or no matching entry |
| VorbisComment.EntryMatches | mythplugins/mythmusic/mythmusic/metaiooggvorbiscomment.cpp:363-364 | TAG=value answers a query exactly when the label spells TAG in some letter case, and then yields value |
| VorbisComment.QueryAfterRewrite | mythplugins/mythmusic/mythmusic/metaiooggvorbiscomment.cpp:93-127 | after the rewrite a query for a managed tag finds the value written for it, or nothing when the field is unset |
| VorbisComment.TrackTextRoundTrip | mythplugins/mythmusic/mythmusic/metaiooggvorbiscomment.cpp:124-125 | a track number of at most 8 characters reads back through atoi |
| VorbisComment.GetCommentAfterRewrite | mythplugins/mythmusic/mythmusic/metaiooggvorbiscomment.cpp:93-127 | artist, title, album and genre written by the rewrite read back exactly through getComment; the track number reads back through atoi when at most 8 characters |
| VorbisComment.Read | mythplugins/mythmusic/mythmusic/metaiooggvorbiscomment.cpp:240-296 | with a title tag, artist, album, title, genre, year and track number come from their tags; with no title tag the year is 0 and the other fields come from the file name; the length is the stream's, 0 when it cannot be opened |
| VorbisComment.ReadAfterRewrite | mythplugins/mythmusic/mythmusic/metaiooggvorbiscomment.cpp:240-296 | reading a file whose comments were rewritten gives back the metadata written, when it has a title; the year is the file's existing DATE entry |
| VorbisComment.Rename | mythplugins/mythmusic/mythmusic/metaiooggvorbiscomment.cpp:222-223 | a rename moves the source's contents to the target, leaves every other file as it was, succeeds exactly when the source exists and the move is allowed |
| VorbisComment.Prepared | mythplugins/mythmusic/mythmusic/metaiooggvorbiscomment.cpp:146-214 | the temporary file is written exactly when every step succeeds, a descriptor below 1 counting as failure; it holds the rewrite of the existing comments, or of none when exclusive |
| VorbisComment.WriteAsWrittenNeverSucceeds | mythplugins/mythmusic/mythmusic/metaiooggvorbiscomment.cpp:221-229 | as written, write never reports success |
| VorbisComment.WriteAsWrittenStoresAnyway | mythplugins/mythmusic/mythmusic/metaiooggvorbiscomment.cpp:221-229 | as written, when every step succeeds the file holds the new comments and yet failure is reported |
| VorbisComment.WriteAsWrittenExample | mythplugins/mythmusic/mythmusic/metaiooggvorbiscomment.cpp:143-230 | a concrete write where every step succeeds: the file ends up with COMMENT=c, ARTIST=A, TITLE=T and write returns false |
| VorbisComment.WriteFile | mythplugins/mythmusic/mythmusic/metaiooggvorbiscomment.cpp:134-142 | success exactly when every step and the rename succeed; then the file holds the rewritten comments; otherwise it keeps the old ones |
| VorbisComment.WriteFileExclusive | mythplugins/mythmusic/mythmusic/metaiooggvorbiscomment.cpp:137-140 | an exclusive write leaves only managed tags; a non-exclusive one keeps every unrecognised tag |
| Text.AtoiIntText | mythplugins/mythmusic/mythmusic/metaiooggvorbiscomment.cpp:271 | atoi reads back the decimal text of any integer |

## Left out

- Connections, SQL statement text and query execution: each query is an input giving its rows, or `None` when it fails. `QString::arg`'s re-expansion of `%n` inside substituted values is not modelled.
- DbmsVersion.ParseDBMSVersion: `\d` in the version pattern is taken as the ASCII digits 0-9. `QRegExp` also matches other Unicode decimal digits; a version string with such a run would, in the source, yield a section whose `toInt` fails (-1), where the model skips the characters.
- Letter case: mapping covers ASCII letters only. Qt's Unicode case mapping and libvorbis's `toupper` in other locales are not modelled. Strings are sequences of characters with no UTF-8 or local 8-bit encoding.
- Null and empty `QString` are one value, the empty string.
- Directory listing: `QDir`'s wildcard filter and sort order are replaced by a listing given in order. The model keeps the names that begin with the suggested file name.
- `USING_MINGW`, logging and `DBError` reporting are left out. They change no result.
- Dates: only years 1000 to 9999 are modelled. There are no time zones or daylight-saving shifts. `QDateTime::currentDateTime` is a parameter.
- BackupTime.SettingSeconds: reads the two ISO 8601 forms `yyyy-MM-ddThh:mm:ss` (what BackupDB writes, after the space becomes T) and a bare `yyyy-MM-dd` (midnight). The other forms Qt::ISODate accepts (minutes without seconds, fractions of a second, a `Z` or offset suffix) read as no time, as does text Qt cannot parse, for which Qt gives an invalid `QDateTime` whose comparisons and `secsTo` are not modelled.
- BackupTime.IsBackupInProgress: `secsTo` is taken as a plain difference of second counts.
- DbmsVersion.CompareDBMSVersion: the difference `version[i] - compareto[i]` is computed without 32-bit wrap-around. Requests are limited to the int range, so only a wrapped difference would differ.
- Backup.RotateArgument: states only the two possible lines and the empty-arguments case, not the case-insensitive search for "rotate", because a contract for that search could only repeat the lower-casing body; RotateArgumentExample pins it on one input.
- `CreateTemporaryDBConf`'s file mode and `fclose` failure are left out. Only whether the file was created matters to the callers.
- `myth_system` is an input giving each command's exit status.
- The schema lock is modelled as the statements `lockSchema` and `unlockSchema` issue and whether they succeed. The server-side lock they take and release is not modelled.
- `getTrackLength` computes in floating point (`ov_time_total * 1000`). The stream's length is an input.
- `MetaIO::readFromFilename` is not part of this model. Its results are an input.
- `write`'s temporary-file template buffer is copied without a terminating NUL. The model assumes mkstemp sees the intended template.
- `write` leaves temporary files behind on some failure paths, and the descriptor is not closed when `fdopen` fails. The model tracks only the comments stored at the original path.
- `write` reads the input with `local8Bit` and then `ascii` file names. The model treats the two names as one path.
- VorbisComment.TrackText: the track number is cut to 8 characters, so a number whose text is longer does not read back; the round trip is stated only for texts of at most 8 characters.
- The year is not written by the rewrite (DATE is not a managed tag), so no year round trip is stated.

## Findings

| source | as written | input that shows it | evidently intended | confidence | as-written member | corrected member |
|---|---|---|---|---|---|---|
| mythplugins/mythmusic/mythmusic/metaiooggvorbiscomment.cpp:222-228 | after the temporary file is renamed over the original, `\|\|` goes on to rename the same temporary file a second time; it is gone, so that rename fails and write returns false | any write in which every step succeeds, e.g. file a.ogg holding COMMENT=c, artist A, title T | report success once the rename succeeds (try the second name only when the first rename fails) | high; not executed | VorbisComment.WriteAsWrittenStoresAnyway | VorbisComment.WriteFile |
| mythtv/libs/libmythbase/dbutil.cpp:62-78 | the "version unknown" sentinel INT_MIN can also be a genuine difference | server version "5" compared with (5, INT_MAX, 0): minor -1 - INT_MAX = INT_MIN | keep "unknown" apart from every difference | low; not executed | DbmsVersion.UnknownSentinelCollides | DbmsVersion.CompareVersion |

=== FILE: backup.dfy ===
/** DBUtil::BackupDB and its two strategies: the operator's backup script,
    handed the connection details in a temporary credential file, and the
    built-in mysqldump run, optionally followed by gzip.

    Nothing is executed. Each strategy is given the outcomes it would meet
    (whether the credential file could be created, the exit statuses, the
    directory listing the script left behind) and reports the side effects
    it requests as a trace of events, so that properties such as "the
    credential file is gone afterwards" and "the password is never on a
    command line" are statements about that trace. */
module Backup {
  import opened Text
  import opened Wrappers
  import opened BackupTime
  import TableHealth

  /** Connection parameters as the database configuration holds them. */
  datatype DatabaseParams = DatabaseParams(hostName: string, port: int, userName: string, password: string, dbName: string)

  /** A side effect a backup run requests. */
  datatype Event =
    | SaveSetting(key: string, value: string)
    | CreateCredentials(path: string, contents: Credentials)
    | RunCommand(command: Command)
    | DeleteCredentials(path: string)
    | RecordHousekeeping

  /** A process a backup runs, with the arguments that shape its command
      line; CommandLine renders it. */
  datatype Command =
    | ScriptCmd(script: string, scriptArgs: string, confPath: string)
    | DumpCmd(confPath: string, hostName: string, port: int, userName: string, dbName: string, pathname: string)
    | CompressCmd(program: string, pathname: string)

  /** The contents of a temporary credential file; CredentialText renders
      it. */
  datatype Credentials =
    | ScriptConf(params: DatabaseParams, schemaVer: string, directory: string, filename: string, rotate: string)
    | DumpConf(password: string)

  /** The command line a process is started with. */
  function CommandLine(c: Command): string {
    match c
    case ScriptCmd(script, scriptArgs, confPath) => ScriptCommand(script, scriptArgs, confPath)
    case DumpCmd(confPath, hostName, port, userName, dbName, pathname) =>
      DumpCommand(confPath, hostName, port, userName, dbName, pathname)
    case CompressCmd(program, pathname) => program + " " + pathname
  }

  /** The text written to a credential file. */
  function CredentialText(c: Credentials): string {
    match c
    case ScriptConf(params, schemaVer, directory, filename, rotate) =>
      ScriptCredentials(params, schemaVer, directory, filename, rotate)
    case DumpConf(password) => DumpCredentials(password)
  }

  /** The file name the run reports after a failed backup command. */
  const FailedMarker: string := "__FAILED__"

  const StartKey: string := "BackupDBLastRunStart"
  const EndKey: string := "BackupDBLastRunEnd"

  // ---------------------------------------------------------------------
  // Traces

  /** The credential files on disk after one event. */
  function CredentialStep(live: set<string>, e: Event): set<string> {
    match e
    case CreateCredentials(p, _) => live + {p}
    case DeleteCredentials(p) => live - {p}
    case _ => live
  }

  /** The credential files left on disk after the events, starting from
      the given set. */
  function LiveCredentials(live: set<string>, trace: seq<Event>): set<string>
    decreases |trace|
  {
    if |trace| == 0 then live else LiveCredentials(CredentialStep(live, trace[0]), trace[1..])
  }

  lemma {:induction false} LiveCredentialsAppend(live: set<string>, a: seq<Event>, b: seq<Event>)
    ensures LiveCredentials(live, a + b) == LiveCredentials(LiveCredentials(live, a), b)
    decreases |a|
  {
    if |a| > 0 {
      assert (a + b)[0] == a[0];
      assert (a + b)[1..] == a[1..] + b;
      LiveCredentialsAppend(CredentialStep(live, a[0]), a[1..], b);
    } else {
      assert a + b == b;
    }
  }

  /** Events that leave no credential file behind that was not there
      before. */
  ghost predicate Tidy(trace: seq<Event>) {
    forall live: set<string> :: LiveCredentials(live, trace) <= live
  }

  lemma TidyAppend(a: seq<Event>, b: seq<Event>)
    requires Tidy(a) && Tidy(b)
    ensures Tidy(a + b)
  {
    forall live: set<string>
      ensures LiveCredentials(live, a + b) <= live
    {
      LiveCredentialsAppend(live, a, b);
      var mid := LiveCredentials(live, a);
      assert LiveCredentials(mid, b) <= mid;
    }
  }

  /** Events that create no credential file are tidy. */
  lemma {:induction false} TidyWithoutCreate(trace: seq<Event>)
    requires forall i :: 0 <= i < |trace| ==> !trace[i].CreateCredentials?
    ensures Tidy(trace)
    decreases |trace|
  {
    if |trace| > 0 {
      TidyWithoutCreate(trace[1..]);
      forall live: set<string>
        ensures LiveCredentials(live, trace) <= live
      {
        var next := CredentialStep(live, trace[0]);
        assert LiveCredentials(next, trace[1..]) <= next;
      }
    }
  }

  /** The processes run, in order. */
  function Commands(trace: seq<Event>): (cmds: seq<Command>)
    ensures |cmds| <= |trace|
  {
    if |trace| == 0 then []
    else (if trace[0].RunCommand? then [trace[0].command] else []) + Commands(trace[1..])
  }

  /** The command lines of the processes run, in order. */
  function CommandLines(trace: seq<Event>): (lines: seq<string>)
    ensures |lines| == |Commands(trace)|
    ensures forall i :: 0 <= i < |lines| ==> lines[i] == CommandLine(Commands(trace)[i])
  {
    var cs := Commands(trace);
    seq(|cs|, i requires 0 <= i < |cs| => CommandLine(cs[i]))
  }

  lemma {:induction false} CommandsAppend(a: seq<Event>, b: seq<Event>)
    ensures Commands(a + b) == Commands(a) + Commands(b)
    decreases |a|
  {
    if |a| > 0 {
      assert (a + b)[0] == a[0];
      assert (a + b)[1..] == a[1..] + b;
      CommandsAppend(a[1..], b);
    } else {
      assert a + b == b;
    }
  }

  /** Events that run the given commands and do nothing else. */
  function RunAll(commands: seq<Command>): (trace: seq<Event>)
    ensures |trace| == |commands|
    ensures forall i :: 0 <= i < |trace| ==> trace[i] == RunCommand(commands[i])
  {
    seq(|commands|, i requires 0 <= i < |commands| => RunCommand(commands[i]))
  }

  lemma {:induction false} CommandsRunAll(commands: seq<Command>)
    ensures Commands(RunAll(commands)) == commands
    decreases |commands|
  {
    if |commands| > 0 {
      assert RunAll(commands)[1..] == RunAll(commands[1..]);
      CommandsRunAll(commands[1..]);
      assert commands == [commands[0]] + commands[1..];
    }
  }

  /** A credential file written, the commands run, and the file deleted. */
  function Bracketed(path: string, contents: Credentials, commands: seq<Command>): (trace: seq<Event>)
    ensures forall i :: 0 <= i < |trace| ==> !trace[i].SaveSetting?
  {
    [CreateCredentials(path, contents)] + RunAll(commands) + [DeleteCredentials(path)]
  }

  /** The commands of a bracketed run are its commands, and it leaves no
      credential file behind. */
  lemma BracketedFacts(path: string, contents: Credentials, commands: seq<Command>)
    ensures Commands(Bracketed(path, contents, commands)) == commands
    ensures Tidy(Bracketed(path, contents, commands))
  {
    var create := [CreateCredentials(path, contents)];
    var delete := [DeleteCredentials(path)];
    CommandsAppend(create + RunAll(commands), delete);
    CommandsAppend(create, RunAll(commands));
    CommandsRunAll(commands);
    assert Commands(create) == [] by { assert create[1..] == []; }
    assert Commands(delete) == [] by { assert delete[1..] == []; }
    forall live: set<string>
      ensures LiveCredentials(live, Bracketed(path, contents, commands)) <= live
    {
      LiveCredentialsAppend(live, create + RunAll(commands), delete);
      LiveCredentialsAppend(live, create, RunAll(commands));
      assert LiveCredentials(live, create) == live + {path} by { assert create[1..] == []; }
      TidyWithoutCreate(RunAll(commands));
      var after := LiveCredentials(live + {path}, RunAll(commands));
      assert after <= live + {path};
      assert LiveCredentials(after, delete) == after - {path} by { assert delete[1..] == []; }
    }
  }

  /** Events that run commands only: their commands, and tidy. */
  lemma RunAllFacts(commands: seq<Command>)
    ensures Commands(RunAll(commands)) == commands
    ensures Tidy(RunAll(commands))
  {
    CommandsRunAll(commands);
    TidyWithoutCreate(RunAll(commands));
  }

  /** The credential file a process is pointed at, or the empty string
      when it takes none. */
  function ConfPath(c: Command): string {
    match c
    case ScriptCmd(_, _, confPath) => confPath
    case DumpCmd(confPath, _, _, _, _, _) => confPath
    case CompressCmd(_, _) => ""
  }

  /** Every process pointed at a credential file runs while that file is
      on disk: written earlier in the trace and not yet deleted. */
  ghost predicate CredentialsInPlace(trace: seq<Event>) {
    forall i :: 0 <= i < |trace| && trace[i].RunCommand? && ConfPath(trace[i].command) != "" ==>
      ConfPath(trace[i].command) in LiveCredentials({}, trace[..i])
  }

  /** More files on disk before the events, more after them. */
  lemma {:induction false} LiveMonotone(a: set<string>, b: set<string>, trace: seq<Event>)
    requires a <= b
    ensures LiveCredentials(a, trace) <= LiveCredentials(b, trace)
    decreases |trace|
  {
    if |trace| > 0 {
      LiveMonotone(CredentialStep(a, trace[0]), CredentialStep(b, trace[0]), trace[1..]);
    }
  }

  /** Events that neither write nor delete a credential file leave the
      files on disk as they were. */
  lemma {:induction false} LiveWithoutFiles(live: set<string>, trace: seq<Event>)
    requires forall i :: 0 <= i < |trace| ==> !trace[i].CreateCredentials? && !trace[i].DeleteCredentials?
    ensures LiveCredentials(live, trace) == live
    decreases |trace|
  {
    if |trace| > 0 {
      LiveWithoutFiles(live, trace[1..]);
    }
  }

  /** Joining two traces keeps every process's credential file in place. */
  lemma InPlaceAppend(a: seq<Event>, b: seq<Event>)
    requires CredentialsInPlace(a) && CredentialsInPlace(b)
    ensures CredentialsInPlace(a + b)
  {
    var t := a + b;
    forall i | 0 <= i < |t| && t[i].RunCommand? && ConfPath(t[i].command) != ""
      ensures ConfPath(t[i].command) in LiveCredentials({}, t[..i])
    {
      if i < |a| {
        assert t[..i] == a[..i] && t[i] == a[i];
      } else {
        var j := i - |a|;
        assert t[..i] == a + b[..j] && t[i] == b[j];
        LiveCredentialsAppend({}, a, b[..j]);
        LiveMonotone({}, LiveCredentials({}, a), b[..j]);
      }
    }
  }

  /** Commands pointed at no credential file, or at the bracketing one,
      run while that file is on disk. */
  lemma BracketedInPlace(path: string, contents: Credentials, commands: seq<Command>)
    requires forall k :: 0 <= k < |commands| ==> ConfPath(commands[k]) == "" || ConfPath(commands[k]) == path
    ensures CredentialsInPlace(Bracketed(path, contents, commands))
  {
    var t := Bracketed(path, contents, commands);
    var create := [CreateCredentials(path, contents)];
    forall i | 0 <= i < |t| && t[i].RunCommand? && ConfPath(t[i].command) != ""
      ensures ConfPath(t[i].command) in LiveCredentials({}, t[..i])
    {
      assert 1 <= i <= |commands|;
      assert t[i] == RunCommand(commands[i - 1]);
      var run := RunAll(commands)[..i - 1];
      assert t[..i] == create + run;
      LiveCredentialsAppend({}, create, run);
      assert LiveCredentials({}, create) == {path} by { assert create[1..] == []; }
      LiveWithoutFiles({path}, run);
    }
  }

  /** Commands pointed at no credential file trivially respect it. */
  lemma RunAllInPlace(commands: seq<Command>)
    requires forall k :: 0 <= k < |commands| ==> ConfPath(commands[k]) == ""
    ensures CredentialsInPlace(RunAll(commands))
  {
  }

  /** Events that run nothing respect every credential file. */
  lemma NoCommandsInPlace(trace: seq<Event>)
    requires forall i :: 0 <= i < |trace| ==> !trace[i].RunCommand?
    ensures CredentialsInPlace(trace)
  {
  }

  /** The last value the events store under `key`, or the empty string. */
  function SavedValue(trace: seq<Event>, key: string): string {
    if |trace| == 0 then ""
    else
      var e := trace[|trace| - 1];
      if e.SaveSetting? && e.key == key then e.value else SavedValue(trace[..|trace| - 1], key)
  }

  /** Events that store no setting leave the stored values as they were. */
  lemma {:induction false} SavedValueSkip(a: seq<Event>, b: seq<Event>, key: string)
    requires forall i :: 0 <= i < |b| ==> !b[i].SaveSetting?
    ensures SavedValue(a + b, key) == SavedValue(a, key)
    decreases |b|
  {
    if |b| > 0 {
      var b' := b[..|b| - 1];
      assert (a + b)[|a + b| - 1] == b[|b| - 1];
      assert (a + b)[..|a + b| - 1] == a + b';
      SavedValueSkip(a, b', key);
    } else {
      assert a + b == a;
    }
  }

  // ---------------------------------------------------------------------
  // Shared pieces

  /** The prefix of every backup file name: database name, a hyphen, and
      the schema version. */
  function BackupPrefix(params: DatabaseParams, schemaVer: string): string {
    params.dbName + "-" + schemaVer
  }

  /** The "DB Backups" storage group as the backup sees it: its
      directories, the one with most free space, and whether that one
      exists. */
  datatype StorageGroup = StorageGroup(dirs: seq<string>, mostFree: string, mostFreeExists: bool)

  /** DBUtil::GetBackupDirectory: the group's directory with most free
      space, or /tmp when the group lists none or that directory is
      missing. */
  function GetBackupDirectory(group: StorageGroup): (dir: string)
    ensures dir == "/tmp" || dir == group.mostFree
    ensures dir == group.mostFree ==> group.mostFree == "/tmp" || (|group.dirs| > 0 && group.mostFreeExists)
    ensures |group.dirs| > 0 && group.mostFreeExists ==> dir == group.mostFree
  {
    if |group.dirs| > 0 && group.mostFreeExists then group.mostFree else "/tmp"
  }

  /** The first name in the listing that starts with the prefix. */
  function FirstWithPrefix(names: seq<string>, prefix: string): (r: Option<string>)
    ensures r.None? <==> forall i :: 0 <= i < |names| ==> !StartsWith(names[i], prefix)
    ensures r.Some? ==> r.value in names && StartsWith(r.value, prefix)
    ensures r.Some? ==> exists i :: 0 <= i < |names| && names[i] == r.value
                          && forall j :: 0 <= j < i ==> !StartsWith(names[j], prefix)
  {
    if |names| == 0 then None
    else if StartsWith(names[0], prefix) then Some(names[0])
    else FirstWithPrefix(names[1..], prefix)
  }

  /** The attempt of one strategy: whether it reports success, the file
      name it reports, and the events it requested. */
  datatype Attempt = Attempt(ok: bool, filename: string, trace: seq<Event>)

  // ---------------------------------------------------------------------
  // The backup script

  /** What a run of the backup script met: the time the file name was
      made, the temporary path chosen for the credential file and whether
      it could be written, the script's exit status and the files in the
      backup directory afterwards, in the directory's listing order. */
  datatype ScriptRun = ScriptRun(now: Stamp, tempPath: string, credentialsCreated: bool, exitStatus: nat, listing: seq<string>)

  /** The rotate line of the credential file: rotate=-1 unless the script
      arguments mention rotation themselves, in any letter case. */
  function RotateArgument(scriptArgs: string): (rotate: string)
    ensures rotate == "" || rotate == "rotate=-1"
    ensures scriptArgs == "" ==> rotate == "rotate=-1"
  {
    if scriptArgs != "" && Contains(ToLower(" " + scriptArgs), "rotate") then "" else "rotate=-1"
  }

  /** Rotation asked for in upper case still suppresses rotate=-1. */
  lemma RotateArgumentExample()
    ensures RotateArgument("--ROTATE=3") == ""
  {
    var l := ToLower(" " + "--ROTATE=3");
    assert l[3..][..6] == "rotate";
    assert Contains(l[3..], "rotate");
    assert Contains(l[2..], "rotate");
    assert Contains(l[1..], "rotate");
  }

  /** The name=value lines DoBackup writes for the script. */
  function ScriptCredentials(params: DatabaseParams, schemaVer: string, directory: string, filename: string, rotate: string): string {
    "DBHostName=" + params.hostName + "\nDBPort=" + IntText(params.port)
      + "\nDBUserName=" + params.userName + "\nDBPassword=" + params.password
      + "\nDBName=" + params.dbName + "\nDBSchemaVer=" + schemaVer
      + "\nDBBackupDirectory=" + directory + "\nDBBackupFilename=" + filename
      + "\n" + rotate + "\n"
  }

  /** The script's command line: the script, its arguments after a space
      when there are any, then the credential file's path (empty when it
      could not be written). */
  function ScriptCommand(script: string, scriptArgs: string, confPath: string): string {
    script + (if scriptArgs == "" then "" else " " + scriptArgs) + " " + confPath
  }

  /** QDir::path() of a QDir made from `directory`: "." for the empty
      path, and one trailing slash dropped from a longer one. */
  function QDirPath(directory: string): (p: string)
    ensures p != ""
    ensures directory == "" ==> p == "."
    ensures directory != "" ==> directory == p || directory == p + "/"
    ensures |directory| > 1 && directory[|directory| - 1] == '/' ==> p + "/" == directory
    ensures directory == "/" ==> p == "/"
  {
    if directory == "" then "."
    else if |directory| > 1 && directory[|directory| - 1] == '/' then directory[..|directory| - 1]
    else directory
  }

  /** A backup directory given with a trailing slash reports the same
      file name as without it, and an empty one reports a name in ".". */
  lemma QDirPathExamples()
    ensures QDirPath("/data/backups/") + "/" + "b.sql" == "/data/backups/b.sql"
    ensures QDirPath("/data/backups") + "/" + "b.sql" == "/data/backups/b.sql"
    ensures QDirPath("") + "/" + "b.sql" == "./b.sql"
  {
    assert "/data/backups/"[..13] == "/data/backups";
  }

  /** DBUtil::DoBackup(backupScript, filename): run the script once; on a
      nonzero exit report the failure marker, otherwise the first file of
      the backup directory whose name starts with the suggested file name,
      or no file when there is none. */
  function ScriptBackup(params: DatabaseParams, schemaVer: string, directory: string, script: string, scriptArgs: string, run: ScriptRun): (r: Attempt)
    ensures r.ok <==> run.exitStatus == 0
    ensures !r.ok ==> r.filename == FailedMarker
    ensures r.ok && r.filename == "" ==>
      forall i :: 0 <= i < |run.listing| ==>
        !StartsWith(run.listing[i], CreateBackupFilename(BackupPrefix(params, schemaVer), ".sql", run.now))
    ensures r.ok && r.filename != "" ==>
      exists name :: name in run.listing
        && StartsWith(name, CreateBackupFilename(BackupPrefix(params, schemaVer), ".sql", run.now))
        && r.filename == QDirPath(directory) + "/" + name
    ensures forall i :: 0 <= i < |r.trace| ==> !r.trace[i].SaveSetting?
  {
    var filename := CreateBackupFilename(BackupPrefix(params, schemaVer), ".sql", run.now);
    var trace := ScriptTrace(params, schemaVer, directory, script, scriptArgs, run);
    if run.exitStatus != 0 then Attempt(false, FailedMarker, trace)
    else match FirstWithPrefix(run.listing, filename)
      case None => Attempt(true, "", trace)
      case Some(name) => Attempt(true, QDirPath(directory) + "/" + name, trace)
  }

  /** The events of a script run: the credential file around the script
      when it could be written, the script alone otherwise. */
  function ScriptTrace(params: DatabaseParams, schemaVer: string, directory: string, script: string, scriptArgs: string, run: ScriptRun): (trace: seq<Event>)
    ensures forall i :: 0 <= i < |trace| ==> !trace[i].SaveSetting?
  {
    var filename := CreateBackupFilename(BackupPrefix(params, schemaVer), ".sql", run.now);
    var contents := ScriptConf(params, schemaVer, directory, filename, RotateArgument(scriptArgs));
    if run.credentialsCreated then Bracketed(run.tempPath, contents, [ScriptCmd(script, scriptArgs, run.tempPath)])
    else RunAll([ScriptCmd(script, scriptArgs, "")])
  }

  /** A script run runs exactly the script, between writing its
      credential file and deleting it when the file could be written, and
      leaves no credential file behind. */
  lemma ScriptBackupTrace(params: DatabaseParams, schemaVer: string, directory: string, script: string, scriptArgs: string, run: ScriptRun)
    ensures var r := ScriptBackup(params, schemaVer, directory, script, scriptArgs, run);
      && Commands(r.trace) == [ScriptCmd(script, scriptArgs, if run.credentialsCreated then run.tempPath else "")]
      && (run.credentialsCreated ==>
        && |r.trace| == 3
        && r.trace[0].CreateCredentials? && r.trace[0].path == run.tempPath
        && r.trace[1] == RunCommand(ScriptCmd(script, scriptArgs, run.tempPath))
        && r.trace[2] == DeleteCredentials(run.tempPath))
      && (!run.credentialsCreated ==> r.trace == [RunCommand(ScriptCmd(script, scriptArgs, ""))])
      && CredentialsInPlace(r.trace)
      && Tidy(r.trace)
  {
    var filename := CreateBackupFilename(BackupPrefix(params, schemaVer), ".sql", run.now);
    var contents := ScriptConf(params, schemaVer, directory, filename, RotateArgument(scriptArgs));
    BracketedFacts(run.tempPath, contents, [ScriptCmd(script, scriptArgs, run.tempPath)]);
    BracketedInPlace(run.tempPath, contents, [ScriptCmd(script, scriptArgs, run.tempPath)]);
    RunAllFacts([ScriptCmd(script, scriptArgs, "")]);
    RunAllInPlace([ScriptCmd(script, scriptArgs, "")]);
  }

  // ---------------------------------------------------------------------
  // The built-in dump

  /** What a built-in dump met: the time the file name was made, the
      temporary credential path and whether it could be written, which
      gzip binaries exist, and the exit statuses of mysqldump and gzip. */
  datatype DumpRun = DumpRun(now: Stamp, tempPath: string, credentialsCreated: bool, binGzip: bool, usrBinGzip: bool, dumpStatus: nat, compressStatus: nat)

  /** The compressor: /bin/gzip if present, else /usr/bin/gzip if present,
      else none (the empty string). */
  function CompressProgram(run: DumpRun): (gzip: string)
    ensures gzip == "" <==> !run.binGzip && !run.usrBinGzip
    ensures run.binGzip ==> gzip == "/bin/gzip"
    ensures !run.binGzip && run.usrBinGzip ==> gzip == "/usr/bin/gzip"
  {
    if run.binGzip then "/bin/gzip" else if run.usrBinGzip then "/usr/bin/gzip" else ""
  }

  /** The option file handing mysqldump the password. */
  function DumpCredentials(password: string): string {
    "[client]\npassword=" + password + "\n[mysqldump]\npassword=" + password + "\n"
  }

  /** The --port option, present only for a positive port. */
  function PortArgument(port: int): (arg: string)
    ensures arg == "" <==> port <= 0
  {
    if port > 0 then " --port='" + IntText(port) + "'" else ""
  }

  /** The port option reads back as the port it was made from. */
  lemma PortArgumentRoundTrip(port: int)
    requires port > 0
    ensures var arg := PortArgument(port);
      && StartsWith(arg, " --port='") && EndsWith(arg, "'")
      && Atoi(arg[9..|arg| - 1]) == port
  {
    var arg := PortArgument(port);
    assert arg[9..|arg| - 1] == IntText(port);
    assert arg[..9] == " --port='";
    AtoiIntText(port);
  }

  /** The mysqldump command line; the password is left to the option
      file. */
  function DumpCommand(confPath: string, hostName: string, port: int, userName: string, dbName: string, pathname: string): string {
    "mysqldump --defaults-extra-file='" + confPath + "' --host='" + hostName + "'"
      + PortArgument(port)
      + " --user='" + userName + "' --add-drop-table --add-locks"
      + " --allow-keywords --complete-insert"
      + " --extended-insert --lock-tables --no-create-db --quick"
      + " '" + dbName + "' > '" + pathname + "' 2>/dev/null"
  }

  /** The mysqldump process: the connection parameters other than the
      password, which stays in the option file. */
  function DumpInvocation(confPath: string, params: DatabaseParams, pathname: string): Command {
    DumpCmd(confPath, params.hostName, params.port, params.userName, params.dbName, pathname)
  }

  /** The path mysqldump writes to. */
  function DumpPathname(params: DatabaseParams, schemaVer: string, directory: string, now: Stamp): string {
    directory + "/" + CreateBackupFilename(BackupPrefix(params, schemaVer), ".sql", now)
  }

  /** The gzip command run after a successful dump, if any. */
  function CompressCommands(run: DumpRun, path: string): seq<Command> {
    if run.dumpStatus == 0 && CompressProgram(run) != "" then [CompressCmd(CompressProgram(run), path)] else []
  }

  /** DBUtil::DoBackup(filename), the built-in strategy; `filename` is the
      name reported so far, kept when the run stops before dumping. */
  function BuiltinBackup(params: DatabaseParams, schemaVer: string, directory: string, run: DumpRun, filename: string): (r: Attempt)
    ensures !run.credentialsCreated ==> r == Attempt(false, filename, [])
    ensures r.ok <==> run.credentialsCreated && run.dumpStatus == 0
    ensures run.credentialsCreated && run.dumpStatus != 0 ==> r.filename == FailedMarker
    ensures forall i :: 0 <= i < |r.trace| ==> !r.trace[i].SaveSetting?
  {
    var path := DumpPathname(params, schemaVer, directory, run.now);
    if !run.credentialsCreated then Attempt(false, filename, [])
    else
      var trace := Bracketed(run.tempPath, DumpConf(params.password), [DumpInvocation(run.tempPath, params, path)])
        + RunAll(CompressCommands(run, path));
      if run.dumpStatus != 0 then Attempt(false, FailedMarker, trace)
      else if CompressProgram(run) == "" then Attempt(true, path, trace)
      else Attempt(true, if run.compressStatus == 0 then path + ".gz" else path, trace)
  }

  /** A successful dump reports the path it wrote, with ".gz" appended
      exactly when a compressor was found and succeeded. */
  lemma BuiltinFilename(params: DatabaseParams, schemaVer: string, directory: string, run: DumpRun, filename: string)
    requires BuiltinBackup(params, schemaVer, directory, run, filename).ok
    ensures var path := DumpPathname(params, schemaVer, directory, run.now);
      var r := BuiltinBackup(params, schemaVer, directory, run, filename);
      && (r.filename == path || r.filename == path + ".gz")
      && (r.filename == path + ".gz" <==> CompressProgram(run) != "" && run.compressStatus == 0)
  {
    var path := DumpPathname(params, schemaVer, directory, run.now);
    assert |path + ".gz"| != |path|;
  }

  /** The dump runs mysqldump between writing and deleting its option
      file, then gzip only after a successful dump, and leaves no
      credential file behind. */
  lemma BuiltinBackupTrace(params: DatabaseParams, schemaVer: string, directory: string, run: DumpRun, filename: string)
    ensures var r := BuiltinBackup(params, schemaVer, directory, run, filename);
      var path := DumpPathname(params, schemaVer, directory, run.now);
      && (run.credentialsCreated ==>
        && |r.trace| >= 3
        && r.trace[0] == CreateCredentials(run.tempPath, DumpConf(params.password))
        && r.trace[1] == RunCommand(DumpInvocation(run.tempPath, params, path))
        && r.trace[2] == DeleteCredentials(run.tempPath)
        && r.trace[3..] == RunAll(CompressCommands(run, path))
        && Commands(r.trace) == [DumpInvocation(run.tempPath, params, path)] + CompressCommands(run, path))
      && CredentialsInPlace(r.trace)
      && Tidy(r.trace)
  {
    var path := DumpPathname(params, schemaVer, directory, run.now);
    var b := Bracketed(run.tempPath, DumpConf(params.password), [DumpInvocation(run.tempPath, params, path)]);
    BracketedFacts(run.tempPath, DumpConf(params.password), [DumpInvocation(run.tempPath, params, path)]);
    RunAllFacts(CompressCommands(run, path));
    CommandsAppend(b, RunAll(CompressCommands(run, path)));
    TidyAppend(b, RunAll(CompressCommands(run, path)));
    BracketedInPlace(run.tempPath, DumpConf(params.password), [DumpInvocation(run.tempPath, params, path)]);
    RunAllInPlace(CompressCommands(run, path));
    InPlaceAppend(b, RunAll(CompressCommands(run, path)));
    TidyWithoutCreate([]);
  }

  // ---------------------------------------------------------------------
  // BackupDB

  /** MythDBBackupStatus. */
  datatype BackupStatus = Disabled | EmptyDB | Completed | Failed

  datatype BackupReport = BackupReport(status: BackupStatus, filename: string, trace: seq<Event>)

  /** Everything BackupDB consults: the DisableAutomaticBackup setting, the
      table listing behind IsNewDatabase (None when the database cannot be
      reached), the backup script's path and whether it exists, the script
      arguments setting, the connection parameters and schema version, the
      storage group as each strategy finds it (each asks for the backup
      directory afresh, the dump after the script may have run), the clock
      when the start and the end are recorded,
      the outcomes the two strategies meet, and whether the connection for
      the housekeeping row is up. */
  datatype BackupEnv = BackupEnv(
    disableSetting: int,
    tableListing: Option<seq<string>>,
    scriptPath: string,
    scriptExists: bool,
    scriptArgs: string,
    params: DatabaseParams,
    schemaVer: string,
    scriptStorage: StorageGroup,
    dumpStorage: StorageGroup,
    startedAt: Stamp,
    endedAt: Stamp,
    script: ScriptRun,
    dump: DumpRun,
    connected: bool)

  /** The script attempt, or a failed attempt with no events when there
      is no script. */
  function ScriptStage(env: BackupEnv): Attempt {
    if env.scriptExists then
      ScriptBackup(env.params, env.schemaVer, GetBackupDirectory(env.scriptStorage), env.scriptPath, env.scriptArgs, env.script)
    else Attempt(false, "", [])
  }

  /** The script attempt followed, when it did not succeed, by the built-in
      dump. */
  function Attempts(env: BackupEnv): (a: Attempt)
    ensures forall i :: 0 <= i < |a.trace| ==> !a.trace[i].SaveSetting?
  {
    var s := ScriptStage(env);
    if s.ok then s
    else
      var d := BuiltinBackup(env.params, env.schemaVer, GetBackupDirectory(env.dumpStorage), env.dump, s.filename);
      Attempt(d.ok, d.filename, s.trace + d.trace)
  }

  /** The events after the attempts: the end time, then the housekeeping
      row when connected. */
  function Closing(env: BackupEnv): seq<Event> {
    [SaveSetting(EndKey, SettingText(env.endedAt))] + (if env.connected then [RecordHousekeeping] else [])
  }

  /** DBUtil::BackupDB. */
  function BackupDB(env: BackupEnv): (r: BackupReport)
    ensures r.status == Disabled <==> env.disableSetting != 0
    ensures r.status == EmptyDB <==>
      env.disableSetting == 0 && TableHealth.IsNewDatabase(TableHealth.GetTables(env.tableListing))
    ensures r.status == Disabled || r.status == EmptyDB ==> r.trace == [] && r.filename == ""
    ensures r.status == Completed || r.status == Failed ==>
      && |r.trace| >= 2
      && r.trace[0] == SaveSetting(StartKey, SettingText(env.startedAt))
  {
    if env.disableSetting != 0 then BackupReport(Disabled, "", [])
    else if TableHealth.IsNewDatabase(TableHealth.GetTables(env.tableListing)) then BackupReport(EmptyDB, "", [])
    else
      var a := Attempts(env);
      BackupReport(if a.ok then Completed else Failed, a.filename,
        [SaveSetting(StartKey, SettingText(env.startedAt))] + a.trace + Closing(env))
  }

  /** A database that cannot be reached lists no tables, so it looks new
      and is not backed up. */
  lemma UnreachableDatabaseSkipped(env: BackupEnv)
    requires env.disableSetting == 0 && env.tableListing.None?
    ensures BackupDB(env).status == EmptyDB
  {
  }

  /** The backup completes exactly when the script exists and succeeds, or
      the built-in dump writes its option file and succeeds. */
  lemma BackupCompletedIff(env: BackupEnv)
    requires env.disableSetting == 0
    requires !TableHealth.IsNewDatabase(TableHealth.GetTables(env.tableListing))
    ensures BackupDB(env).status == Completed <==>
      (env.scriptExists && env.script.exitStatus == 0)
      || (env.dump.credentialsCreated && env.dump.dumpStatus == 0)
    ensures BackupDB(env).status == Failed <==> BackupDB(env).status != Completed
  {
  }

  /** A failed backup reports either no file or the failure marker. */
  lemma FailedFilename(env: BackupEnv)
    requires BackupDB(env).status == Failed
    ensures BackupDB(env).filename == "" || BackupDB(env).filename == FailedMarker
  {
  }

  /** The processes the two strategies run: the script when it exists,
      then, when the script is absent or failed and the option file could
      be written, mysqldump and the compressor. */
  lemma AttemptCommands(env: BackupEnv)
    ensures var dir := GetBackupDirectory(env.dumpStorage);
      var conf := if env.script.credentialsCreated then env.script.tempPath else "";
      var path := DumpPathname(env.params, env.schemaVer, dir, env.dump.now);
      var scriptOk := env.scriptExists && env.script.exitStatus == 0;
      Commands(Attempts(env).trace)
        == (if env.scriptExists then [ScriptCmd(env.scriptPath, env.scriptArgs, conf)] else [])
         + (if !scriptOk && env.dump.credentialsCreated
            then [DumpInvocation(env.dump.tempPath, env.params, path)] + CompressCommands(env.dump, path)
            else [])
  {
    var s := ScriptStage(env);
    if env.scriptExists {
      ScriptBackupTrace(env.params, env.schemaVer, GetBackupDirectory(env.scriptStorage),
                        env.scriptPath, env.scriptArgs, env.script);
    }
    if !s.ok {
      var dir := GetBackupDirectory(env.dumpStorage);
      var d := BuiltinBackup(env.params, env.schemaVer, dir, env.dump, s.filename);
      BuiltinBackupTrace(env.params, env.schemaVer, dir, env.dump, s.filename);
      CommandsAppend(s.trace, d.trace);
    }
  }

  /** BackupDB runs no process besides those of its attempts. */
  lemma BackupCommands(env: BackupEnv)
    requires env.disableSetting == 0
    requires !TableHealth.IsNewDatabase(TableHealth.GetTables(env.tableListing))
    ensures Commands(BackupDB(env).trace) == Commands(Attempts(env).trace)
  {
    var a := Attempts(env);
    var start := [SaveSetting(StartKey, SettingText(env.startedAt))];
    CommandsAppend(start + a.trace, Closing(env));
    CommandsAppend(start, a.trace);
    assert Commands(start) == [] by { assert start[1..] == []; }
    var end := [SaveSetting(EndKey, SettingText(env.endedAt))];
    assert Commands(Closing(env)) == [] by {
      CommandsAppend(end, if env.connected then [RecordHousekeeping] else []);
      assert end[1..] == [];
      assert [RecordHousekeeping][1..] == [];
    }
  }

  /** No credential file is left on disk once BackupDB returns. */
  lemma NoCredentialsLeft(env: BackupEnv)
    ensures LiveCredentials({}, BackupDB(env).trace) == {}
  {
    var r := BackupDB(env);
    if r.status == Completed || r.status == Failed {
      var a := Attempts(env);
      var start := [SaveSetting(StartKey, SettingText(env.startedAt))];
      AttemptsTidy(env);
      BetweenTidy(start, a.trace, Closing(env));
      assert r.trace == start + a.trace + Closing(env);
      assert LiveCredentials({}, r.trace) <= {};
    }
  }

  /** Tidy events between events that create no credential file are
      tidy. */
  lemma BetweenTidy(before: seq<Event>, work: seq<Event>, after: seq<Event>)
    requires forall i :: 0 <= i < |before| ==> !before[i].CreateCredentials?
    requires forall i :: 0 <= i < |after| ==> !after[i].CreateCredentials?
    requires Tidy(work)
    ensures Tidy(before + work + after)
  {
    TidyWithoutCreate(before);
    TidyWithoutCreate(after);
    TidyAppend(before, work);
    TidyAppend(before + work, after);
  }

  /** Each strategy deletes the credential file it created. */
  lemma AttemptsTidy(env: BackupEnv)
    ensures Tidy(Attempts(env).trace)
  {
    var s := ScriptStage(env);
    if env.scriptExists {
      ScriptBackupTrace(env.params, env.schemaVer, GetBackupDirectory(env.scriptStorage),
                        env.scriptPath, env.scriptArgs, env.script);
    } else {
      TidyWithoutCreate(s.trace);
    }
    if !s.ok {
      var dir := GetBackupDirectory(env.dumpStorage);
      var d := BuiltinBackup(env.params, env.schemaVer, dir, env.dump, s.filename);
      BuiltinBackupTrace(env.params, env.schemaVer, dir, env.dump, s.filename);
      TidyAppend(s.trace, d.trace);
    }
  }

  /** Every process of a backup that is pointed at a credential file
      runs while that file is on disk: the script and mysqldump each run
      after their file is written and before it is deleted. */
  lemma CredentialsInPlaceThroughout(env: BackupEnv)
    ensures CredentialsInPlace(BackupDB(env).trace)
  {
    if BackupDB(env).status == Completed || BackupDB(env).status == Failed {
      BackupTraceShape(env);
      AttemptsInPlace(env);
      InPlaceBetween(BackupDB(env).trace, SaveSetting(StartKey, SettingText(env.startedAt)), Attempts(env).trace,
                     SaveSetting(EndKey, SettingText(env.endedAt)), if env.connected then [RecordHousekeeping] else []);
    } else {
      NoCommandsInPlace(BackupDB(env).trace);
    }
  }

  /** Work framed by events that run nothing keeps its processes'
      credential files in place. */
  lemma InPlaceBetween(t: seq<Event>, first: Event, work: seq<Event>, last: Event, tail: seq<Event>)
    requires t == [first] + work + [last] + tail
    requires !first.RunCommand? && !last.RunCommand?
    requires forall i :: 0 <= i < |tail| ==> !tail[i].RunCommand?
    requires CredentialsInPlace(work)
    ensures CredentialsInPlace(t)
  {
    NoCommandsInPlace([first]);
    NoCommandsInPlace([last] + tail);
    InPlaceAppend([first], work);
    InPlaceAppend([first] + work, [last] + tail);
    assert [first] + work + ([last] + tail) == t;
  }

  /** Both strategies keep each process's credential file in place. */
  lemma AttemptsInPlace(env: BackupEnv)
    ensures CredentialsInPlace(Attempts(env).trace)
  {
    var s := ScriptStage(env);
    if env.scriptExists {
      ScriptBackupTrace(env.params, env.schemaVer, GetBackupDirectory(env.scriptStorage),
                        env.scriptPath, env.scriptArgs, env.script);
    } else {
      NoCommandsInPlace(s.trace);
    }
    if !s.ok {
      var dir := GetBackupDirectory(env.dumpStorage);
      var d := BuiltinBackup(env.params, env.schemaVer, dir, env.dump, s.filename);
      BuiltinBackupTrace(env.params, env.schemaVer, dir, env.dump, s.filename);
      InPlaceAppend(s.trace, d.trace);
    }
  }

  /** The password only ever goes into the credential files: changing it
      changes no process and no command line. */
  lemma PasswordNotInCommands(env: BackupEnv, password: string)
    ensures var other := env.(params := env.params.(password := password));
      && Commands(BackupDB(other).trace) == Commands(BackupDB(env).trace)
      && CommandLines(BackupDB(other).trace) == CommandLines(BackupDB(env).trace)
  {
    var other := env.(params := env.params.(password := password));
    if BackupDB(env).status == Completed || BackupDB(env).status == Failed {
      BackupCommands(env);
      BackupCommands(other);
      AttemptCommands(env);
      AttemptCommands(other);
      var path := DumpPathname(env.params, env.schemaVer, GetBackupDirectory(env.dumpStorage), env.dump.now);
      assert DumpPathname(other.params, other.schemaVer, GetBackupDirectory(other.dumpStorage), other.dump.now) == path;
      assert DumpInvocation(other.dump.tempPath, other.params, path) == DumpInvocation(env.dump.tempPath, env.params, path);
    }
  }

  /** Storing a value makes it the stored value of its key and leaves the
      other keys alone. */
  lemma SavedValueStore(t: seq<Event>, k: string, v: string, key: string)
    ensures SavedValue(t + [SaveSetting(k, v)], key) == if key == k then v else SavedValue(t, key)
  {
    assert (t + [SaveSetting(k, v)])[..|t|] == t;
  }

  /** Events that store the start, do work that stores nothing, store the
      end, and then store nothing leave both values stored. */
  lemma RunSettings(work: seq<Event>, startText: string, endText: string, tail: seq<Event>)
    requires forall i :: 0 <= i < |work| ==> !work[i].SaveSetting?
    requires forall i :: 0 <= i < |tail| ==> !tail[i].SaveSetting?
    ensures var t := [SaveSetting(StartKey, startText)] + work + [SaveSetting(EndKey, endText)] + tail;
      SavedValue(t, StartKey) == startText && SavedValue(t, EndKey) == endText
  {
    var start := [SaveSetting(StartKey, startText)];
    var body := start + work + [SaveSetting(EndKey, endText)];
    SavedValueSkip(body, tail, StartKey);
    SavedValueSkip(body, tail, EndKey);
    assert |StartKey| != |EndKey|;
    SavedValueStore(start + work, EndKey, endText, StartKey);
    SavedValueStore(start + work, EndKey, endText, EndKey);
    SavedValueSkip(start, work, StartKey);
    SavedValueStore([], StartKey, startText, StartKey);
    assert [] + start == start;
  }

  /** A backup run leaves its start and end times as the stored
      settings. */
  lemma SavedRunTimes(env: BackupEnv)
    requires BackupDB(env).status == Completed || BackupDB(env).status == Failed
    ensures SavedValue(BackupDB(env).trace, StartKey) == SettingText(env.startedAt)
    ensures SavedValue(BackupDB(env).trace, EndKey) == SettingText(env.endedAt)
  {
    var tail := if env.connected then [RecordHousekeeping] else [];
    BackupTraceShape(env);
    RunSettings(Attempts(env).trace, SettingText(env.startedAt), SettingText(env.endedAt), tail);
  }

  /** The events of a backup run, in order. */
  lemma BackupTraceShape(env: BackupEnv)
    requires BackupDB(env).status == Completed || BackupDB(env).status == Failed
    ensures BackupDB(env).trace ==
      [SaveSetting(StartKey, SettingText(env.startedAt))] + Attempts(env).trace
      + [SaveSetting(EndKey, SettingText(env.endedAt))] + (if env.connected then [RecordHousekeeping] else [])
  {
    var x := [SaveSetting(StartKey, SettingText(env.startedAt))];
    var a := Attempts(env).trace;
    var e := [SaveSetting(EndKey, SettingText(env.endedAt))];
    var t := if env.connected then [RecordHousekeeping] else [];
    assert BackupDB(env).trace == x + a + Closing(env);
    assert x + a + (e + t) == x + a + e + t;
  }

  /** In a backup run every command, and every option file written or
      removed, comes after the start time is saved and before the end time
      is saved; only the housekeeping record follows the end time. */
  lemma WorkBetweenSavedTimes(env: BackupEnv)
    requires BackupDB(env).status == Completed || BackupDB(env).status == Failed
    ensures var t := BackupDB(env).trace;
      var e := |t| - (if env.connected then 2 else 1);
      && 0 < e < |t|
      && t[e] == SaveSetting(EndKey, SettingText(env.endedAt))
      && (forall i :: e < i < |t| ==> t[i] == RecordHousekeeping)
      && (forall i :: 0 <= i < |t| && (t[i].RunCommand? || t[i].CreateCredentials? || t[i].DeleteCredentials?)
            ==> 0 < i < e)
  {
    BackupTraceShape(env);
    var tail := if env.connected then [RecordHousekeeping] else [];
    Framed(BackupDB(env).trace, SaveSetting(StartKey, SettingText(env.startedAt)), Attempts(env).trace,
           SaveSetting(EndKey, SettingText(env.endedAt)), tail);
  }

  /** A trace framed by two setting saves, with only housekeeping after
      the second: everything else lies strictly between them. */
  lemma Framed(t: seq<Event>, first: Event, work: seq<Event>, last: Event, tail: seq<Event>)
    requires t == [first] + work + [last] + tail
    requires first.SaveSetting? && last.SaveSetting?
    requires forall i :: 0 <= i < |tail| ==> tail[i] == RecordHousekeeping
    ensures var e := |t| - |tail| - 1;
      && e == 1 + |work| && t[e] == last
      && (forall i :: e < i < |t| ==> t[i] == RecordHousekeeping)
      && (forall i :: 0 <= i < |t| && (t[i].RunCommand? || t[i].CreateCredentials? || t[i].DeleteCredentials?)
            ==> 0 < i < e)
  {
    var e := |t| - |tail| - 1;
    assert forall i :: e < i < |t| ==> t[i] == tail[i - e - 1];
  }

  /** After a backup run whose recorded end is not before its start, the
      stored settings say that no backup is in progress, whatever the
      time. */
  lemma NotInProgressAfterRun(env: BackupEnv, now: int)
    requires ValidStamp(env.startedAt) && ValidStamp(env.endedAt)
    requires StampSeconds(env.endedAt) >= StampSeconds(env.startedAt)
    requires BackupDB(env).status == Completed || BackupDB(env).status == Failed
    ensures var trace := BackupDB(env).trace;
      !IsBackupInProgress(SettingSeconds(SavedValue(trace, StartKey)), SettingSeconds(SavedValue(trace, EndKey)), now)
  {
    SavedRunTimes(env);
    SettingRoundTrip(env.startedAt);
    SettingRoundTrip(env.endedAt);
  }
}

=== FILE: backup_time.dfy ===
/** The clock side of DBUtil's backups: the date and time texts a backup
    run writes (the compact form in backup file names and the form stored
    in the BackupDBLastRunStart/BackupDBLastRunEnd settings), reading the
    stored form back, and IsBackupInProgress over the recorded times.

    QDateTime is replaced by explicit date fields; the settings are read
    back as seconds counted on a proleptic Gregorian calendar with no time
    zone or daylight-saving shifts. */
module BackupTime {
  import opened Text
  import opened Wrappers

  /** A backup started this many seconds ago is presumed dead. */
  const StallSeconds: int := 600

  /** DBUtil::IsBackupInProgress over the recorded start and end times, in
      seconds (None for an empty setting), and the current time. A run with
      no end counts while under 600 seconds old; a run whose end predates
      its start counts up to and including 600 seconds. */
  function IsBackupInProgress(start: Option<int>, end: Option<int>, now: int): (running: bool)
    ensures running ==> start.Some? && now - start.value <= StallSeconds
    ensures running ==> end.None? || end.value < start.value
    ensures start.Some? && end.None? ==> (running <==> now - start.value < StallSeconds)
    ensures start.Some? && end.Some? && end.value < start.value
      ==> (running <==> now - start.value <= StallSeconds)
  {
    match start
    case None => false
    case Some(s) =>
      match end
      case None => now - s < StallSeconds
      case Some(e) =>
        if e >= s then false
        else if now - s > StallSeconds then false
        else true
  }

  /** A run that is in progress now was already in progress at any earlier
      moment after its start was recorded. */
  lemma InProgressEarlier(start: Option<int>, end: Option<int>, earlier: int, now: int)
    requires earlier <= now
    requires IsBackupInProgress(start, end, now)
    ensures IsBackupInProgress(start, end, earlier)
  {
  }

  /** The two stall tests differ at exactly 600 seconds: a run with no end
      is over, a run with a stale end is still running. */
  lemma StallBoundary(t: int)
    ensures !IsBackupInProgress(Some(t), None, t + 600)
    ensures IsBackupInProgress(Some(t), Some(t - 1), t + 600)
    ensures !IsBackupInProgress(Some(t), Some(t - 1), t + 601)
  {
  }

  /** The decision table written out on sample times: 5 and 15 minutes
      after a start with no end, an end one minute after the start, and a
      stale end with the start 2 minutes ago. */
  lemma InProgressExamples(t: int)
    ensures IsBackupInProgress(Some(t), None, t + 300)
    ensures !IsBackupInProgress(Some(t), None, t + 900)
    ensures !IsBackupInProgress(Some(t), Some(t + 60), t + 120)
    ensures IsBackupInProgress(Some(t), Some(t - 60), t + 120)
    ensures !IsBackupInProgress(None, Some(t), t)
  {
  }

  /** A local date and time. */
  datatype Stamp = Stamp(year: nat, month: nat, day: nat, hour: nat, minute: nat, second: nat)

  predicate IsLeapYear(y: nat) {
    (y % 4 == 0 && y % 100 != 0) || y % 400 == 0
  }

  function DaysInMonth(y: nat, m: nat): nat
    requires 1 <= m <= 12
  {
    if m == 2 then (if IsLeapYear(y) then 29 else 28)
    else if m == 4 || m == 6 || m == 9 || m == 11 then 30
    else 31
  }

  /** A valid date and time whose year has four digits. */
  predicate ValidStamp(t: Stamp) {
    && 1000 <= t.year <= 9999
    && 1 <= t.month <= 12
    && 1 <= t.day <= DaysInMonth(t.year, t.month)
    && t.hour < 24 && t.minute < 60 && t.second < 60
  }

  /** QDateTime::toString("yyyyMMddhhmmss"). */
  function CompactText(t: Stamp): (s: string)
    ensures |s| == 14 && IsDigits(s)
  {
    var s := PadDecimal(t.year, 4) + PadDecimal(t.month, 2) + PadDecimal(t.day, 2)
      + PadDecimal(t.hour, 2) + PadDecimal(t.minute, 2) + PadDecimal(t.second, 2);
    assert forall i :: 0 <= i < 14 ==> IsDigit(s[i]);
    s
  }

  /** Value of the digits s[i..j]. */
  function Field(s: string, i: nat, j: nat): nat
    requires IsDigits(s) && i <= j <= |s|
  {
    assert IsDigits(s[i..j]);
    DecimalValue(s[i..j])
  }

  /** Reads 14 digits written as yyyyMMddhhmmss; None unless they form a
      valid date and time. */
  function ParseCompact(s: string): (r: Option<Stamp>)
    ensures r.Some? ==> ValidStamp(r.value)
  {
    if |s| == 14 && IsDigits(s) then
      var t := Stamp(Field(s, 0, 4), Field(s, 4, 6), Field(s, 6, 8),
                     Field(s, 8, 10), Field(s, 10, 12), Field(s, 12, 14));
      if ValidStamp(t) then Some(t) else None
    else None
  }

  /** Reading back the compact text of a valid time gives that time. */
  lemma CompactRoundTrip(t: Stamp)
    requires ValidStamp(t)
    ensures ParseCompact(CompactText(t)) == Some(t)
  {
    var s := CompactText(t);
    assert Pow10(2) == 100;
    assert Pow10(4) == 10000;
    assert s[0..4] == PadDecimal(t.year, 4);
    assert s[4..6] == PadDecimal(t.month, 2);
    assert s[6..8] == PadDecimal(t.day, 2);
    assert s[8..10] == PadDecimal(t.hour, 2);
    assert s[10..12] == PadDecimal(t.minute, 2);
    assert s[12..14] == PadDecimal(t.second, 2);
    PadDecimalRoundTrip(t.year, 4);
    PadDecimalRoundTrip(t.month, 2);
    PadDecimalRoundTrip(t.day, 2);
    PadDecimalRoundTrip(t.hour, 2);
    PadDecimalRoundTrip(t.minute, 2);
    PadDecimalRoundTrip(t.second, 2);
  }

  /** Whatever ParseCompact accepts is the compact text of what it reads. */
  lemma CompactParseInverse(s: string)
    requires ParseCompact(s).Some?
    ensures CompactText(ParseCompact(s).value) == s
  {
    var t := ParseCompact(s).value;
    ParsedFields(s);
    FieldPads(s, 0, 4, t.year);
    FieldPads(s, 4, 6, t.month);
    FieldPads(s, 6, 8, t.day);
    FieldPads(s, 8, 10, t.hour);
    FieldPads(s, 10, 12, t.minute);
    FieldPads(s, 12, 14, t.second);
    CompactOfFields(t, s);
  }

  /** What ParseCompact accepts is 14 digits, and the fields it reads are
      the values of the six slices. */
  lemma ParsedFields(s: string)
    requires ParseCompact(s).Some?
    ensures |s| == 14 && IsDigits(s)
    ensures var t := ParseCompact(s).value;
      && t.year == Field(s, 0, 4) && t.month == Field(s, 4, 6) && t.day == Field(s, 6, 8)
      && t.hour == Field(s, 8, 10) && t.minute == Field(s, 10, 12) && t.second == Field(s, 12, 14)
  {
  }

  /** Fourteen characters whose six field slices are the padded fields of
      t are the compact text of t. */
  lemma CompactOfFields(t: Stamp, s: string)
    requires |s| == 14
    requires PadDecimal(t.year, 4) == s[0..4] && PadDecimal(t.month, 2) == s[4..6]
    requires PadDecimal(t.day, 2) == s[6..8] && PadDecimal(t.hour, 2) == s[8..10]
    requires PadDecimal(t.minute, 2) == s[10..12] && PadDecimal(t.second, 2) == s[12..14]
    ensures CompactText(t) == s
  {
    assert s[0..4] + s[4..6] == s[0..6];
    assert s[0..6] + s[6..8] == s[0..8];
    assert s[0..8] + s[8..10] == s[0..10];
    assert s[0..10] + s[10..12] == s[0..12];
    assert s[0..12] + s[12..14] == s[0..14] == s;
  }

  /** A field read from a digit string pads back to the same digits. */
  lemma FieldPads(s: string, i: nat, j: nat, v: nat)
    requires IsDigits(s) && i <= j <= |s| && v == Field(s, i, j)
    ensures PadDecimal(v, j - i) == s[i..j]
  {
    PadDecimalOfValue(s[i..j]);
  }

  /** QDateTime::toString("yyyy-MM-dd hh:mm:ss"), the form BackupDB stores
      in the run-time settings. */
  function SettingText(t: Stamp): (s: string)
    ensures |s| == 19
  {
    PadDecimal(t.year, 4) + "-" + PadDecimal(t.month, 2) + "-" + PadDecimal(t.day, 2)
      + " " + PadDecimal(t.hour, 2) + ":" + PadDecimal(t.minute, 2) + ":" + PadDecimal(t.second, 2)
  }

  /** QString::replace(" ", "T"). */
  function ReplaceSpaces(s: string): (r: string)
    ensures |r| == |s|
    ensures forall i :: 0 <= i < |s| ==> r[i] == if s[i] == ' ' then 'T' else s[i]
  {
    seq(|s|, i requires 0 <= i < |s| => if s[i] == ' ' then 'T' else s[i])
  }

  /** The date and time fields of yyyy-MM-ddThh:mm:ss, or of a bare
      yyyy-MM-dd date read as its midnight; None for any other text. */
  function ParseIsoDate(s: string): Option<Stamp> {
    if |s| == 19 && s[4] == '-' && s[7] == '-' && s[10] == 'T' && s[13] == ':' && s[16] == ':' then
      ParseCompact(s[0..4] + s[5..7] + s[8..10] + s[11..13] + s[14..16] + s[17..19])
    else if |s| == 10 && s[4] == '-' && s[7] == '-' then
      ParseCompact(s[0..4] + s[5..7] + s[8..10] + "000000")
    else None
  }

  /** QDate::toString(Qt::ISODate): the yyyy-MM-dd text of a date. */
  function DateText(t: Stamp): (s: string)
    ensures |s| == 10
  {
    PadDecimal(t.year, 4) + "-" + PadDecimal(t.month, 2) + "-" + PadDecimal(t.day, 2)
  }

  /** Days from 1970-01-01 to the given date of the proleptic Gregorian
      calendar, for years from 1 on (the days-from-civil method). */
  function DaysFromCivil(y: nat, m: nat, d: nat): int
    requires 1 <= m <= 12 && y >= 1
  {
    var y' := if m <= 2 then y - 1 else y;
    var era := y' / 400;
    var yoe := y' - era * 400;
    var mp := if m > 2 then m - 3 else m + 9;
    var doy := (153 * mp + 2) / 5 + d - 1;
    var doe := yoe * 365 + yoe / 4 - yoe / 100 + doy;
    era * 146097 + doe - 719468
  }

  /** Seconds since 1970-01-01 00:00:00 of a valid time. */
  function StampSeconds(t: Stamp): int
    requires ValidStamp(t)
  {
    DaysFromCivil(t.year, t.month, t.day) * 86400 + t.hour * 3600 + t.minute * 60 + t.second
  }

  /** A run-time setting as IsBackupInProgress reads it: None when empty,
      otherwise the seconds of the time it holds after the space is turned
      into the ISO 'T'. */
  function SettingSeconds(text: string): (r: Option<int>)
    ensures text == "" ==> r.None?
  {
    if text == "" then None
    else match ParseIsoDate(ReplaceSpaces(text))
      case Some(t) => Some(StampSeconds(t))
      case None => None
  }

  /** What BackupDB stores reads back as the time it recorded. */
  lemma SettingRoundTrip(t: Stamp)
    requires ValidStamp(t)
    ensures ParseIsoDate(ReplaceSpaces(SettingText(t))) == Some(t)
    ensures SettingSeconds(SettingText(t)) == Some(StampSeconds(t))
  {
    SettingIsoFields(t);
    CompactRoundTrip(t);
    assert SettingText(t) != "";
  }

  /** A setting holding only a date reads as the midnight that starts
      it, as Qt::ISODate takes a bare date. */
  lemma DateSettingIsMidnight(t: Stamp)
    requires ValidStamp(t) && t.hour == 0 && t.minute == 0 && t.second == 0
    ensures SettingSeconds(DateText(t)) == Some(StampSeconds(t))
  {
    DateIsoFields(t);
    CompactRoundTrip(t);
    assert ParseIsoDate(DateText(t)) == Some(t);
  }

  /** A date's text has no space, has the ISO 8601 separators, and its
      digit fields followed by a zero time spell the compact text of its
      midnight. */
  lemma DateIsoFields(t: Stamp)
    requires t.hour == 0 && t.minute == 0 && t.second == 0
    ensures var u := DateText(t);
      && ReplaceSpaces(u) == u
      && u[4] == '-' && u[7] == '-'
      && u[0..4] + u[5..7] + u[8..10] + "000000" == CompactText(t)
  {
    var u := DateText(t);
    var c := CompactText(t);
    assert forall i :: 0 <= i < 10 ==> u[i] != ' ' by {
      assert IsDigits(u[0..4]) && IsDigits(u[5..7]) && IsDigits(u[8..10]);
    }
    SingleDigitPad(0);
    assert c[8..14] == "000000";
    assert u[0..4] == c[0..4] && u[5..7] == c[4..6] && u[8..10] == c[6..8];
    assert c == c[0..4] + c[4..6] + c[6..8] + c[8..14];
  }

  /** The setting "2024-03-05" is a recorded time. */
  lemma DateSettingExample()
    ensures SettingSeconds("2024" + "-" + "03" + "-" + "05").Some?
  {
    var t := Stamp(2024, 3, 5, 0, 0, 0);
    DateSettingIsMidnight(t);
    YearSample();
    SingleDigitPad(3);
    SingleDigitPad(5);
  }

  /** With its space turned into T, the stored text has the ISO 8601
      separators, and its digit fields spell the compact text. */
  lemma SettingIsoFields(t: Stamp)
    ensures var s := ReplaceSpaces(SettingText(t));
      && s[4] == '-' && s[7] == '-' && s[10] == 'T' && s[13] == ':' && s[16] == ':'
      && s[0..4] + s[5..7] + s[8..10] + s[11..13] + s[14..16] + s[17..19] == CompactText(t)
  {
    var u := SettingText(t);
    var s := ReplaceSpaces(u);
    var c := CompactText(t);
    assert u[0..4] == c[0..4] && u[5..7] == c[4..6] && u[8..10] == c[6..8];
    assert u[11..13] == c[8..10] && u[14..16] == c[10..12] && u[17..19] == c[12..14];
    assert s[0..4] == c[0..4];
    assert s[5..7] == c[4..6];
    assert s[8..10] == c[6..8];
    assert s[11..13] == c[8..10];
    assert s[14..16] == c[10..12];
    assert s[17..19] == c[12..14];
    assert c == c[0..4] + c[4..6] + c[6..8] + c[8..10] + c[10..12] + c[12..14];
  }

  /** The clock reading of the epoch, as a check of StampSeconds. */
  lemma StampSecondsEpoch()
    ensures StampSeconds(Stamp(1970, 1, 1, 0, 0, 0)) == 0
  {
    assert 1969 / 400 == 4 && 369 / 4 == 92 && 369 / 100 == 3 && (153 * 10 + 2) / 5 == 306;
  }

  /** The clock reading of 2024-01-02 03:04:05, as a check of StampSeconds. */
  lemma StampSecondsSample()
    ensures StampSeconds(Stamp(2024, 1, 2, 3, 4, 5)) == 1704164645
  {
    assert DaysFromCivil(2024, 1, 2) == 19724 by {
      assert 2023 / 400 == 5 && 23 / 4 == 5 && 23 / 100 == 0 && (153 * 10 + 2) / 5 == 306;
    }
  }

  /** DBUtil::CreateBackupFilename: the prefix, a hyphen, the time as
      yyyyMMddhhmmss, then the extension. */
  function CreateBackupFilename(prefix: string, extension: string, now: Stamp): (name: string)
    ensures |name| == |prefix| + 15 + |extension|
    ensures name[..|prefix|] == prefix && name[|prefix|] == '-'
    ensures IsDigits(name[|prefix| + 1..|prefix| + 15])
    ensures name[|prefix| + 15..] == extension
  {
    prefix + "-" + CompactText(now) + extension
  }

  /** A backup file name splits back into its prefix, its time and its
      extension. */
  lemma BackupFilenameParts(prefix: string, extension: string, now: Stamp)
    requires ValidStamp(now)
    ensures var f := CreateBackupFilename(prefix, extension, now);
      && |f| == |prefix| + 15 + |extension|
      && f[..|prefix|] == prefix
      && f[|prefix|] == '-'
      && ParseCompact(f[|prefix| + 1..|prefix| + 15]) == Some(now)
      && f[|prefix| + 15..] == extension
  {
    var f := CreateBackupFilename(prefix, extension, now);
    assert f[|prefix| + 1..|prefix| + 15] == CompactText(now);
    CompactRoundTrip(now);
  }

  /** Two backup names with the same prefix and extension are equal only
      when they were made at the same time. */
  lemma BackupFilenameInjective(prefix: string, extension: string, a: Stamp, b: Stamp)
    requires ValidStamp(a) && ValidStamp(b)
    requires CreateBackupFilename(prefix, extension, a) == CreateBackupFilename(prefix, extension, b)
    ensures a == b
  {
    BackupFilenameParts(prefix, extension, a);
    BackupFilenameParts(prefix, extension, b);
  }

  lemma BackupFilenameExample()
    ensures CreateBackupFilename("mydb-1005", ".sql", Stamp(2024, 1, 2, 3, 4, 5))
      == "mydb-1005-" + "20240102030405" + ".sql"
  {
    CompactSample();
  }

  lemma CompactSample()
    ensures CompactText(Stamp(2024, 1, 2, 3, 4, 5)) == "20240102030405"
  {
    YearSample();
    SingleDigitPad(1);
    SingleDigitPad(2);
    SingleDigitPad(3);
    SingleDigitPad(4);
    SingleDigitPad(5);
    var c := CompactText(Stamp(2024, 1, 2, 3, 4, 5));
    assert c == "2024" + "01" + "02" + "03" + "04" + "05";
  }

  /** A value below ten pads to two digits as a zero and its digit. */
  lemma SingleDigitPad(n: nat)
    requires n < 10
    ensures PadDecimal(n, 2) == ['0', DigitChar(n)]
  {
    assert PadDecimal(n / 10, 1) == PadDecimal(0, 0) + [DigitChar(0)];
  }

  lemma YearSample()
    ensures PadDecimal(2024, 4) == "2024"
  {
    assert DecimalValue("2024") == 2024 by {
      assert "2024"[..3] == "202" && "202"[..2] == "20" && "20"[..1] == "2" && "2"[..0] == "";
    }
    PadDecimalOfValue("2024");
  }
}

=== FILE: dbms_version.dfy ===
/** The DBMS version probe of DBUtil: the server's version string is split
    into up to three numeric components, which are then compared with a
    requested (major, minor, point) version. */
module DbmsVersion {
  import opened Text
  import opened Wrappers

  /** DBUtil::kUnknownVersionNumber (INT_MIN). */
  const UnknownVersionNumber: int := -0x8000_0000

  const IntMax: int := 0x7fff_ffff

  /** The C++ `int` parameters of CompareDBMSVersion. */
  type Int32 = x: int | -0x8000_0000 <= x <= 0x7fff_ffff

  /** The maximal runs of decimal digits of s, in order of appearance. */
  function DigitRuns(s: string): (runs: seq<string>)
    ensures forall i :: 0 <= i < |runs| ==> |runs[i]| > 0 && IsDigits(runs[i])
    decreases |s|
  {
    if |s| == 0 then []
    else if !IsDigit(s[0]) then DigitRuns(s[1..])
    else
      var n := LeadingDigits(s);
      [s[..n]] + DigitRuns(s[n..])
  }

  /** QString::toInt on a run of digits: its value, or -1 when the value
      does not fit in an int. */
  function SectionValue(section: string): int
    requires IsDigits(section)
  {
    var v := DecimalValue(section);
    if v <= IntMax then v else -1
  }

  /** A parsed version; -1 marks a component that is absent or unusable. */
  datatype Version = Version(major: int, minor: int, point: int)

  /** The i-th component taken from the digit runs, -1 when there are fewer. */
  function Component(runs: seq<string>, i: nat): int
    requires forall j :: 0 <= j < |runs| ==> IsDigits(runs[j])
  {
    if i < |runs| then SectionValue(runs[i]) else -1
  }

  /** The version that ParseDBMSVersion extracts from a version string:
      the values of its first three digit runs. */
  function ParsedVersion(s: string): Version {
    var runs := DigitRuns(s);
    Version(Component(runs, 0), Component(runs, 1), Component(runs, 2))
  }

  /** QRegExp("(\\d+)").indexIn(s, pos): the first digit at or after pos. */
  function IndexOfDigit(s: string, pos: nat): (k: int)
    requires pos <= |s|
    ensures k == -1 || (pos <= k < |s| && IsDigit(s[k]))
    ensures forall j :: pos <= j < |s| && (k == -1 || j < k) ==> !IsDigit(s[j])
    decreases |s| - pos
  {
    if pos == |s| then -1
    else if IsDigit(s[pos]) then pos
    else IndexOfDigit(s, pos + 1)
  }

  /** Non-digits before the next digit contribute no run. */
  lemma {:induction false} SkipNonDigits(s: string, pos: nat, k: nat)
    requires pos <= k <= |s|
    requires forall j :: pos <= j < k ==> !IsDigit(s[j])
    ensures DigitRuns(s[pos..]) == DigitRuns(s[k..])
    decreases k - pos
  {
    if pos < k {
      assert s[pos..][1..] == s[pos + 1..];
      SkipNonDigits(s, pos + 1, k);
    }
  }

  /** A digit at k starts a run that extends as far as the digits go. */
  lemma RunStartsAt(s: string, k: nat, n: nat)
    requires k < |s| && IsDigit(s[k])
    requires n == LeadingDigits(s[k..])
    ensures 0 < n && k + n <= |s| && IsDigits(s[k..k + n])
    ensures DigitRuns(s[k..]) == [s[k..k + n]] + DigitRuns(s[k + n..])
  {
    assert s[k..][0] == s[k];
    assert s[k..][..n] == s[k..k + n];
    assert s[k..][n..] == s[k + n..];
  }

  /** DBUtil::ParseDBMSVersion's scanning loop: repeatedly find the next
      run of digits, convert it, and stop after three runs or when no run
      is left. It succeeds iff a major version was found. */
  method ParseDBMSVersion(s: string) returns (ok: bool, v: Version)
    ensures v == ParsedVersion(s)
    ensures ok <==> v.major > -1
  {
    var version := [-1, -1, -1];
    var pos: nat := 0;
    var i := 0;
    var found := true;
    ghost var sections: seq<string> := [];
    while i < 3 && found
      invariant 0 <= i <= 3 && pos <= |s| && |version| == 3 && |sections| == i
      invariant RunsSplit(s, sections, pos)
      invariant !found ==> DigitRuns(s[pos..]) == []
      invariant forall j :: 0 <= j < |sections| ==> IsDigits(sections[j])
      invariant version == Components(sections)
      decreases 3 - i, found
    {
      var k := IndexOfDigit(s, pos);
      if k < 0 {
        SkipNonDigits(s, pos, |s|);
        assert s[|s|..] == [];
        found := false;
      } else {
        var n := LeadingDigits(s[k..]);
        TakeRun(s, pos, k, n, sections);
        var section := s[k..k + n];
        ComponentsExtend(sections, section);
        version := version[i := SectionValue(section)];
        sections := sections + [section];
        pos := k + n;
        i := i + 1;
      }
    }
    ParseFinishes(s, pos, sections, found);
    v := Version(version[0], version[1], version[2]);
    ok := v.major > -1;
  }

  /** The digit runs of s are the sections taken so far followed by the
      runs of what remains from pos on. */
  ghost predicate RunsSplit(s: string, sections: seq<string>, pos: nat)
    requires pos <= |s|
  {
    DigitRuns(s) == sections + DigitRuns(s[pos..])
  }

  /** One round of the parse: skip to the digit at k and take the run
      that starts there. */
  lemma TakeRun(s: string, pos: nat, k: nat, n: nat, sections: seq<string>)
    requires pos <= k < |s| && IsDigit(s[k])
    requires forall j :: pos <= j < k ==> !IsDigit(s[j])
    requires RunsSplit(s, sections, pos)
    requires n == LeadingDigits(s[k..])
    ensures 0 < n && k + n <= |s| && IsDigits(s[k..k + n])
    ensures RunsSplit(s, sections + [s[k..k + n]], k + n)
  {
    SkipNonDigits(s, pos, k);
    RunStartsAt(s, k, n);
    var run := s[k..k + n];
    assert sections + ([run] + DigitRuns(s[k + n..])) == (sections + [run]) + DigitRuns(s[k + n..]);
  }

  /** Taking one more section fixes the next component and keeps the
      earlier ones. */
  lemma ComponentsExtend(sections: seq<string>, section: string)
    requires forall j :: 0 <= j < |sections| ==> IsDigits(sections[j])
    requires IsDigits(section) && |sections| < 3
    ensures forall j :: 0 <= j < |sections| + 1 ==> IsDigits((sections + [section])[j])
    ensures Components(sections + [section]) == Components(sections)[|sections| := SectionValue(section)]
  {
  }

  /** The three components the sections give, in order. */
  function Components(sections: seq<string>): (c: seq<int>)
    requires forall j :: 0 <= j < |sections| ==> IsDigits(sections[j])
    ensures |c| == 3
  {
    [Component(sections, 0), Component(sections, 1), Component(sections, 2)]
  }

  /** When the scan stops, after three runs or with no run left, the runs
      it took give the components of the first three digit runs. */
  lemma ParseFinishes(s: string, pos: nat, sections: seq<string>, found: bool)
    requires pos <= |s| && |sections| <= 3
    requires RunsSplit(s, sections, pos)
    requires !found ==> DigitRuns(s[pos..]) == []
    requires |sections| == 3 || !found
    ensures forall j :: 0 <= j < |sections| ==> IsDigits(sections[j])
    ensures var c := Components(sections); ParsedVersion(s) == Version(c[0], c[1], c[2])
  {
    var runs := DigitRuns(s);
    assert runs[..|sections|] == sections;
    ComponentsOfPrefix(runs, sections);
  }

  /** When the parse stops, the sections read so far either are all the
      runs or already number three: either way they fix the components. */
  lemma ComponentsOfPrefix(runs: seq<string>, sections: seq<string>)
    requires forall j :: 0 <= j < |runs| ==> IsDigits(runs[j])
    requires |sections| <= |runs| && sections == runs[..|sections|]
    requires |sections| == 3 || sections == runs
    ensures forall j :: 0 <= j < 3 ==> Component(runs, j) == Component(sections, j)
  {
  }

  /** One step of CompareDBMSVersion's loop. A stored component that is
      absent (-1) is passed over when 0 is requested; otherwise the step
      yields the difference. */
  function ComponentDifference(have: int, want: int): int {
    if have > -1 || want != 0 then have - want else 0
  }

  /** A stored component matches a requested one. */
  predicate Agrees(have: int, want: int) {
    have == want || (have <= -1 && want == 0)
  }

  /** The loop of CompareDBMSVersion over (major, minor, point): the first
      nonzero step, or 0. */
  function CompareVersions(v: Version, major: int, minor: int, point: int): (r: int)
    ensures r == 0 <==> Agrees(v.major, major) && Agrees(v.minor, minor) && Agrees(v.point, point)
    ensures r != 0 ==> r == v.major - major || r == v.minor - minor || r == v.point - point
    ensures !Agrees(v.major, major) ==> r == v.major - major
    ensures Agrees(v.major, major) && !Agrees(v.minor, minor) ==> r == v.minor - minor
    ensures Agrees(v.major, major) && Agrees(v.minor, minor) && !Agrees(v.point, point)
      ==> r == v.point - point
  {
    var d0 := ComponentDifference(v.major, major);
    if d0 != 0 then d0
    else
      var d1 := ComponentDifference(v.minor, minor);
      if d1 != 0 then d1 else ComponentDifference(v.point, point)
  }

  function Sign(x: int): int {
    if x < 0 then -1 else if x > 0 then 1 else 0
  }

  /** Ordinary lexicographic order of two triples, as -1, 0 or 1. */
  function LexOrder(a0: int, a1: int, a2: int, b0: int, b1: int, b2: int): int {
    if a0 != b0 then Sign(a0 - b0)
    else if a1 != b1 then Sign(a1 - b1)
    else Sign(a2 - b2)
  }

  /** The value an absent (-1) component stands for. */
  function Present(c: int): int {
    if c == -1 then 0 else c
  }

  /** For the versions the parser produces and non-negative requests, the
      comparison orders versions lexicographically, an absent component
      counting as 0. */
  lemma CompareIsLexicographic(v: Version, major: nat, minor: nat, point: nat)
    requires v.major >= -1 && v.minor >= -1 && v.point >= -1
    ensures Sign(CompareVersions(v, major, minor, point))
         == LexOrder(Present(v.major), Present(v.minor), Present(v.point), major, minor, point)
  {
  }

  /** Every component of a parsed version is -1 or an int value. */
  lemma ParsedVersionRange(s: string)
    ensures var v := ParsedVersion(s);
      -1 <= v.major <= IntMax && -1 <= v.minor <= IntMax && -1 <= v.point <= IntMax
  {
  }

  /** DBUtil::CompareDBMSVersion as written: kUnknownVersionNumber when no
      major version can be parsed, otherwise the first nonzero difference. */
  function CompareDBMSVersion(s: string, major: Int32, minor: Int32, point: Int32): (r: int)
    ensures ParsedVersion(s).major == -1 ==> r == UnknownVersionNumber
    ensures ParsedVersion(s).major != -1 ==> r == CompareVersions(ParsedVersion(s), major, minor, point)
  {
    var v := ParsedVersion(s);
    if v.major < 0 then UnknownVersionNumber else CompareVersions(v, major, minor, point)
  }

  /** Comparing a version string with its own parsed triple gives 0. */
  lemma CompareWithOwnVersion(s: string)
    requires ParsedVersion(s).major > -1
    ensures var v := ParsedVersion(s);
      CompareDBMSVersion(s, v.major, v.minor, v.point) == 0
  {
    ParsedVersionRange(s);
  }

  /** The parse of the version string "5": major 5, nothing else. */
  lemma ParseFive()
    ensures ParsedVersion("5") == Version(5, -1, -1)
  {
    var s := "5";
    assert LeadingDigits(s[1..]) == 0;
    assert LeadingDigits(s) == 1;
    assert s[1..] == [];
    assert DigitRuns(s) == [s[..1]] + DigitRuns(s[1..]);
    assert DecimalValue("5") == 5 by {
      assert "5"[..0] == [];
    }
  }

  /** The unknown-version sentinel is also a genuine comparison result: a
      server reporting "5" compared with (5, INT_MAX, 0) yields INT_MIN,
      the value callers read as "version cannot be determined". */
  lemma UnknownSentinelCollides()
    ensures ParsedVersion("5").major == 5
    ensures CompareDBMSVersion("5", 5, IntMax, 0) == UnknownVersionNumber
  {
    ParseFive();
  }

  /** The outcome of a version comparison, keeping "unknown" apart from
      every numeric difference. */
  datatype VersionOrder = Unknown | Order(difference: int)

  /** The comparison with the unknown case as its own outcome. */
  function CompareVersion(s: string, major: Int32, minor: Int32, point: Int32): (r: VersionOrder)
    ensures r.Unknown? <==> ParsedVersion(s).major == -1
    ensures r.Order? ==> (r.difference == 0 <==>
      Agrees(ParsedVersion(s).major, major) && Agrees(ParsedVersion(s).minor, minor)
      && Agrees(ParsedVersion(s).point, point))
  {
    ParsedVersionRange(s);
    var v := ParsedVersion(s);
    if v.major < 0 then Unknown else Order(CompareVersions(v, major, minor, point))
  }

  /** The integer result agrees with the separated one except that both
      "unknown" and a difference of INT_MIN come out as INT_MIN. */
  lemma CompareDBMSVersionEncodes(s: string, major: Int32, minor: Int32, point: Int32)
    ensures var o := CompareVersion(s, major, minor, point);
      CompareDBMSVersion(s, major, minor, point) == (if o.Unknown? then UnknownVersionNumber else o.difference)
    ensures CompareDBMSVersion(s, major, minor, point) == UnknownVersionNumber <==>
      (CompareVersion(s, major, minor, point).Unknown?
       || CompareVersion(s, major, minor, point).difference == UnknownVersionNumber)
  {
    ParsedVersionRange(s);
  }

  /** The version fields of a DBUtil object: the cached version string and
      the parsed components (all -1 until a parse has run). */
  datatype Probe = Probe(versionString: string, version: Version)

  /** A freshly constructed DBUtil. */
  const NewProbe := Probe("", Version(-1, -1, -1))

  /** Where a version string comes from: the DBMSVersionOverride setting
      and the reply to the server's version query (None when it fails). */
  datatype VersionSource = VersionSource(overrideSetting: string, serverReply: Option<string>)

  /** The string QueryDBMSVersion obtains: the override when it is set,
      else the server's reply, else the empty string. */
  function ReportedVersion(src: VersionSource): string {
    if src.overrideSetting != "" then src.overrideSetting else src.serverReply.GetOr("")
  }

  /** DBUtil::QueryDBMSVersion: stores the reported string; true iff it is
      not empty. */
  function QueryDBMSVersion(p: Probe, src: VersionSource): (r: (Probe, bool))
    ensures r.0.version == p.version
    ensures src.overrideSetting != "" ==> r.0.versionString == src.overrideSetting
    ensures src.overrideSetting == "" && src.serverReply.None? ==> r.0.versionString == ""
    ensures src.overrideSetting == "" && src.serverReply.Some? ==> r.0.versionString == src.serverReply.value
    ensures r.1 <==> r.0.versionString != ""
  {
    var text := ReportedVersion(src);
    (Probe(text, p.version), text != "")
  }

  /** DBUtil::GetDBMSVersion: the cached string, queried only while the
      cache is empty. */
  function GetDBMSVersion(p: Probe, src: VersionSource): (r: (Probe, string))
    ensures p.versionString != "" ==> r == (p, p.versionString)
    ensures p.versionString == "" ==> r.1 == ReportedVersion(src) && r.0.versionString == r.1
  {
    if p.versionString == "" then
      var (q, _) := QueryDBMSVersion(p, src);
      (q, q.versionString)
    else (p, p.versionString)
  }

  /** DBUtil::ParseDBMSVersion on the object: queries when no string is
      cached, gives up when that fails, otherwise stores the parse of the
      string and reports whether a major version was found. */
  function ParseCachedVersion(p: Probe, src: VersionSource): (r: (Probe, bool))
    ensures r.0.versionString != "" ==> r.0.version == ParsedVersion(r.0.versionString)
    ensures r.1 <==> r.0.versionString != "" && ParsedVersion(r.0.versionString).major > -1
    ensures p.versionString != "" ==> r.0.versionString == p.versionString
  {
    var (q, queried) := if p.versionString == "" then QueryDBMSVersion(p, src) else (p, true);
    if !queried then (q, false)
    else
      var v := ParsedVersion(q.versionString);
      (Probe(q.versionString, v), v.major > -1)
  }

  /** DBUtil::CompareDBMSVersion on the object: reuses the stored version
      once a major component is known, parses (and if needed queries)
      otherwise. */
  function CompareCachedVersion(p: Probe, src: VersionSource, major: Int32, minor: Int32, point: Int32): (r: (Probe, int))
    ensures p.version.major > -1 ==> r.0 == p
    ensures p.versionString != "" ==> r.0.versionString == p.versionString
    ensures r.0.version.major < 0 ==> r.1 == UnknownVersionNumber
    ensures r.0.version.major >= 0 ==> r.1 == CompareVersions(r.0.version, major, minor, point)
  {
    var (q, ok) := if p.version.major < 0 then ParseCachedVersion(p, src) else (p, true);
    if !ok then (q, UnknownVersionNumber)
    else (q, CompareVersions(q.version, major, minor, point))
  }

  /** The stored components, once a major version is known, are the parse
      of the stored string. */
  ghost predicate Consistent(p: Probe) {
    p.version.major > -1 ==> p.version == ParsedVersion(p.versionString)
  }

  /** The cached comparison equals the comparison of the cached string: the
      first call answers for the reported version, later calls reuse the
      cache without consulting the source again. */
  lemma CachedCompareMatchesUncached(p: Probe, src: VersionSource, major: Int32, minor: Int32, point: Int32)
    requires Consistent(p)
    ensures var (q, r) := CompareCachedVersion(p, src, major, minor, point);
      && Consistent(q)
      && (p.versionString != "" ==> q.versionString == p.versionString)
      && (p.version.major > -1 ==> q == p)
      && (q.versionString != "" ==> r == CompareDBMSVersion(q.versionString, major, minor, point))
      && (p.versionString == "" ==> q.versionString == ReportedVersion(src))
      && (p.versionString == "" ==> r == CompareDBMSVersion(ReportedVersion(src), major, minor, point))
  {
    var (q, r) := CompareCachedVersion(p, src, major, minor, point);
    if p.versionString == "" && ReportedVersion(src) == "" {
      assert ParsedVersion("") == Version(-1, -1, -1);
    }
  }
}

=== FILE: table_health.dfy ===
/** Table health logic of DBUtil: classifying the rows returned by CHECK
    TABLE / REPAIR TABLE, the check-then-repair decision, the table list
    test for a new database, the client estimate and the schema lock.

    The database itself is not modelled: each statement's outcome is an
    input (whether the connection is open, whether execution succeeded,
    and the rows it returned). */
module TableHealth {
  import opened Text
  import opened Wrappers

  /** One result row of CHECK TABLE or REPAIR TABLE: the Table, Msg_type
      and Msg_text columns. */
  datatype Row = Row(table: string, msgType: string, msgText: string)

  /** Msg_type and Msg_text decoded once, ignoring case. */
  datatype MsgKind = StatusOk | StatusNotOk | Error | Other

  function Kind(r: Row): MsgKind {
    var msgType := ToLower(r.msgType);
    if msgType == "status" then (if ToLower(r.msgText) == "ok" then StatusOk else StatusNotOk)
    else if msgType == "error" then Error
    else Other
  }

  /** The effect of one row on a table's ok flag: a status row sets it to
      whether the text is "ok", an error row clears it, any other row
      (warning, info, note) leaves it alone. */
  function Update(ok: bool, r: Row): bool {
    match Kind(r)
    case StatusOk => true
    case StatusNotOk => false
    case Error => false
    case Other => ok
  }

  /** Whether a run of rows about one table leaves that table OK. */
  function RunOk(run: seq<Row>): bool {
    if |run| == 0 then true else Update(RunOk(run[..|run| - 1]), run[|run| - 1])
  }

  /** Start of the last run: the maximal block of consecutive rows, at the
      end of `rows`, that name the same table as the last row. */
  function RunStart(rows: seq<Row>): (s: nat)
    requires |rows| > 0
    ensures s < |rows|
    ensures forall j :: s <= j < |rows| ==> rows[j].table == rows[|rows| - 1].table
    ensures s > 0 ==> rows[s - 1].table != rows[|rows| - 1].table
  {
    if |rows| == 1 then 0
    else if rows[|rows| - 2].table == rows[|rows| - 1].table then RunStart(rows[..|rows| - 1])
    else |rows| - 1
  }

  /** The tables reported as crashed: one entry for each run of rows whose
      verdict is not OK, in the order of the runs. */
  function CrashedTables(rows: seq<Row>): (crashed: seq<string>)
    ensures |crashed| <= |rows|
    decreases |rows|
  {
    if |rows| == 0 then []
    else
      var s := RunStart(rows);
      CrashedTables(rows[..s]) + (if RunOk(rows[s..]) then [] else [rows[|rows| - 1].table])
  }

  /** DBUtil::CheckRepairStatus: one pass over the rows with a per-table ok
      flag, reporting a table when the rows about it end and the flag is
      down. */
  method CheckRepairStatus(rows: seq<Row>) returns (tables: seq<string>)
    ensures tables == CrashedTables(rows)
  {
    tables := [];
    var table := "";
    var previous := "";
    var ok := true;
    var i := 0;
    ghost var start: nat := 0;
    while i < |rows|
      invariant i <= |rows|
      invariant ScanState(rows, i, start, tables, ok, previous)
      invariant i > 0 ==> table == previous
    {
      ghost var start0, tables0, ok0, previous0 := start, tables, ok, previous;
      table := rows[i].table;
      var newTable := table != previous;
      if newTable {
        if !ok {
          tables := tables + [previous];
          ok := true;
        }
        previous := table;
        start := i;
      }
      ok := ApplyRow(ok, rows[i]);
      ScanAdvances(rows, i, start0, tables0, ok0, previous0, start, tables, ok, previous);
      i := i + 1;
    }
    ScanFinishes(rows, start, tables, ok, previous);
    if !ok {
      tables := tables + [table];
    }
  }

  /** What the scan knows after reading the first i rows: the crashed
      tables among the runs before the current one, and the verdict so
      far on the current run, which starts at `start`. */
  ghost predicate ScanState(rows: seq<Row>, i: nat, start: nat, tables: seq<string>, ok: bool, previous: string)
    requires i <= |rows|
  {
    && start <= i
    && (i == 0 ==> tables == [] && ok && previous == "")
    && (i > 0 ==>
      && previous == rows[i - 1].table
      && start == RunStart(rows[..i])
      && tables == CrashedTables(rows[..start])
      && ok == RunOk(rows[start..i]))
  }

  /** One iteration of the scan keeps ScanState: a row about a new table
      flushes the verdict on the previous run and starts a new one, any
      other row updates the verdict on the current run. */
  lemma ScanAdvances(rows: seq<Row>, i: nat, start: nat, tables: seq<string>, ok: bool, previous: string,
                     start': nat, tables': seq<string>, ok': bool, previous': string)
    requires i < |rows| && ScanState(rows, i, start, tables, ok, previous)
    requires previous' == rows[i].table
    requires rows[i].table != previous ==>
      start' == i && tables' == (if ok then tables else tables + [previous]) && ok' == Update(true, rows[i])
    requires rows[i].table == previous ==>
      start' == start && tables' == tables && ok' == Update(ok, rows[i])
    ensures ScanState(rows, i + 1, start', tables', ok', previous')
  {
    ScanStep(rows, i);
  }

  /** Flushing the last run's verdict after the scan yields CrashedTables. */
  lemma ScanFinishes(rows: seq<Row>, start: nat, tables: seq<string>, ok: bool, previous: string)
    requires ScanState(rows, |rows|, start, tables, ok, previous)
    ensures (if ok then tables else tables + [previous]) == CrashedTables(rows)
  {
    assert rows[..|rows|] == rows;
  }

  /** The two tests CheckRepairStatus applies to each row, on the
      lower-cased Msg_type and Msg_text. */
  method ApplyRow(ok: bool, r: Row) returns (ok': bool)
    ensures ok' == Update(ok, r)
    ensures Kind(r) == Other ==> ok' == ok
  {
    ok' := ok;
    var msgType := ToLower(r.msgType);
    var msgText := ToLower(r.msgText);
    if msgType == "status" && msgText == "ok" {
      ok' := true;
    } else if msgType == "error" || (msgType == "status" && msgText != "ok") {
      ok' := false;
    }
  }

  /** What reading row i does to the runs of the rows read so far: a row
      about the same table extends the last run, any other row closes it
      and starts a new one. */
  lemma ScanStep(rows: seq<Row>, i: nat)
    requires i < |rows|
    ensures i > 0 && rows[i].table == rows[i - 1].table ==>
      var s := RunStart(rows[..i]);
      && RunStart(rows[..i + 1]) == s
      && RunOk(rows[s..i + 1]) == Update(RunOk(rows[s..i]), rows[i])
    ensures i == 0 || rows[i].table != rows[i - 1].table ==>
      && RunStart(rows[..i + 1]) == i
      && RunOk(rows[i..i + 1]) == Update(true, rows[i])
    ensures i > 0 ==>
      var s := RunStart(rows[..i]);
      CrashedTables(rows[..i]) == CrashedTables(rows[..s]) + (if RunOk(rows[s..i]) then [] else [rows[i - 1].table])
  {
    var before := rows[..i];
    var r := rows[i];
    assert rows[..i + 1] == before + [r];
    if i > 0 && r.table == rows[i - 1].table {
      SameTableStep(before, r);
      var s := RunStart(before);
      assert before[s..] == rows[s..i];
      assert (before + [r])[s..] == rows[s..i + 1];
    } else {
      NewTableStep(before, r);
      assert (before + [r])[i..] == rows[i..i + 1];
    }
    if i > 0 {
      var s := RunStart(before);
      assert before[..s] == rows[..s];
      assert before[s..] == rows[s..i];
    }
  }

  /** Appending a row about the table of the last run extends that run. */
  lemma SameTableStep(before: seq<Row>, r: Row)
    requires |before| > 0 && r.table == before[|before| - 1].table
    ensures var after := before + [r]; var s := RunStart(before);
      && RunStart(after) == s
      && after[..s] == before[..s]
      && RunOk(after[s..]) == Update(RunOk(before[s..]), r)
  {
    var s := RunStart(before);
    SameTableStart(before, r);
    AppendRunOk(before, r, s);
    assert (before + [r])[..s] == before[..s];
  }

  lemma SameTableStart(before: seq<Row>, r: Row)
    requires |before| > 0 && r.table == before[|before| - 1].table
    ensures RunStart(before + [r]) == RunStart(before)
  {
    var after := before + [r];
    assert after[..|after| - 1] == before;
    assert after[|after| - 2] == before[|before| - 1];
  }

  /** Appending a row to the rows from s on updates their verdict. */
  lemma AppendRunOk(before: seq<Row>, r: Row, s: nat)
    requires s <= |before|
    ensures RunOk((before + [r])[s..]) == Update(RunOk(before[s..]), r)
  {
    var run := (before + [r])[s..];
    assert run[..|run| - 1] == before[s..];
    assert run[|run| - 1] == r;
  }

  /** Appending a row about another table starts a new run after all the
      rows before it. */
  lemma NewTableStep(before: seq<Row>, r: Row)
    requires |before| == 0 || r.table != before[|before| - 1].table
    ensures var after := before + [r];
      && RunStart(after) == |before|
      && after[..|before|] == before
      && RunOk(after[|before|..]) == Update(true, r)
  {
    var after := before + [r];
    assert after[..|before|] == before;
    assert after[|before|..] == [r];
    assert [r][..0] == [];
  }

  /** The verdict on a run is that of its last status or error row; a run
      with no such row is OK. */
  ghost predicate LastVerdictOk(run: seq<Row>) {
    || (forall i :: 0 <= i < |run| ==> Kind(run[i]) == Other)
    || (exists i :: 0 <= i < |run| && Kind(run[i]) == StatusOk
                    && forall j :: i < j < |run| ==> Kind(run[j]) == Other)
  }

  /** The ok flag at the end of a run is decided by the last status or
      error row: a later status "OK" clears earlier errors, and rows of
      other message types change nothing. */
  lemma {:induction false} RunOkIsLastVerdict(run: seq<Row>)
    ensures RunOk(run) <==> LastVerdictOk(run)
  {
    if |run| > 0 {
      var last := |run| - 1;
      var p := run[..last];
      RunOkIsLastVerdict(p);
      var r := run[last];
      assert run == p + [r];
      match Kind(r)
      case StatusOk =>
        StatusOkVerdict(p, r);
      case StatusNotOk =>
        FailedVerdict(p, r);
      case Error =>
        FailedVerdict(p, r);
      case Other =>
        if LastVerdictOk(p) {
          OtherKeepsVerdict(p, r);
        }
        if LastVerdictOk(p + [r]) {
          OtherKeepsNoVerdict(p, r);
        }
    }
  }

  /** A trailing status "OK" row makes a run's verdict OK. */
  lemma StatusOkVerdict(p: seq<Row>, r: Row)
    requires Kind(r) == StatusOk
    ensures LastVerdictOk(p + [r])
  {
    var run := p + [r];
    assert Kind(run[|p|]) == StatusOk;
  }

  /** A trailing status row other than "OK", or error row, makes a run's
      verdict not OK. */
  lemma FailedVerdict(p: seq<Row>, r: Row)
    requires Kind(r) == StatusNotOk || Kind(r) == Error
    ensures !LastVerdictOk(p + [r])
  {
    var run := p + [r];
    assert Kind(run[|p|]) != Other;
  }

  /** A trailing row of another message type keeps a run's verdict OK. */
  lemma OtherKeepsVerdict(p: seq<Row>, r: Row)
    requires Kind(r) == Other && LastVerdictOk(p)
    ensures LastVerdictOk(p + [r])
  {
    var run := p + [r];
    if forall i :: 0 <= i < |p| ==> Kind(p[i]) == Other {
      assert forall i :: 0 <= i < |run| ==> Kind(run[i]) == Other by {
        forall i | 0 <= i < |run| ensures Kind(run[i]) == Other {
          if i < |p| { assert run[i] == p[i]; }
        }
      }
    } else {
      var i :| 0 <= i < |p| && Kind(p[i]) == StatusOk
               && forall j :: i < j < |p| ==> Kind(p[j]) == Other;
      assert run[i] == p[i];
      assert forall j :: i < j < |run| ==> Kind(run[j]) == Other by {
        forall j | i < j < |run| ensures Kind(run[j]) == Other {
          if j < |p| { assert run[j] == p[j]; }
        }
      }
    }
  }

  /** A trailing row of another message type does not make a run's
      verdict OK. */
  lemma OtherKeepsNoVerdict(p: seq<Row>, r: Row)
    requires Kind(r) == Other && LastVerdictOk(p + [r])
    ensures LastVerdictOk(p)
  {
    var run := p + [r];
    if forall i :: 0 <= i < |run| ==> Kind(run[i]) == Other {
      assert forall i :: 0 <= i < |p| ==> Kind(p[i]) == Other by {
        forall i | 0 <= i < |p| ensures Kind(p[i]) == Other {
          assert run[i] == p[i];
        }
      }
    } else {
      var i :| 0 <= i < |run| && Kind(run[i]) == StatusOk
               && forall j :: i < j < |run| ==> Kind(run[j]) == Other;
      assert i < |p|;
      assert p[i] == run[i];
      assert forall j :: i < j < |p| ==> Kind(p[j]) == Other by {
        forall j | i < j < |p| ensures Kind(p[j]) == Other {
          assert p[j] == run[j];
        }
      }
    }
  }

  /** A row about the same table as the last row extends the last run:
      the earlier runs keep their entries and the run's verdict is
      updated by the new row. */
  lemma ContinueRun(rows: seq<Row>, r: Row)
    requires |rows| > 0 && r.table == rows[|rows| - 1].table
    ensures var s := RunStart(rows);
      CrashedTables(rows + [r])
      == CrashedTables(rows[..s]) + (if Update(RunOk(rows[s..]), r) then [] else [r.table])
  {
    SameTableStep(rows, r);
  }

  /** A row about a different table closes the last run and starts a new
      one, whose verdict is that of the new row alone. */
  lemma StartRun(rows: seq<Row>, r: Row)
    requires |rows| == 0 || r.table != rows[|rows| - 1].table
    ensures CrashedTables(rows + [r])
         == CrashedTables(rows) + (if Update(true, r) then [] else [r.table])
  {
    NewTableStep(rows, r);
  }

  /** A final status "OK" row clears every earlier error of its run: the
      table is listed only for its earlier runs, if any. */
  lemma FinalStatusOkClears(rows: seq<Row>, r: Row)
    requires |rows| > 0 && r.table == rows[|rows| - 1].table && Kind(r) == StatusOk
    ensures CrashedTables(rows + [r]) == CrashedTables(rows[..RunStart(rows)])
  {
    ContinueRun(rows, r);
  }

  /** Rows with other message types (warnings, notes) change nothing. */
  lemma OtherRowsChangeNothing(rows: seq<Row>, r: Row)
    requires |rows| == 0 || r.table == rows[|rows| - 1].table
    requires Kind(r) == Other
    ensures CrashedTables(rows + [r]) == CrashedTables(rows)
  {
    if |rows| == 0 {
      StartRun(rows, r);
    } else {
      ContinueRun(rows, r);
      var s := RunStart(rows);
      assert Update(RunOk(rows[s..]), r) == RunOk(rows[s..]);
      assert CrashedTables(rows)
        == CrashedTables(rows[..s]) + (if RunOk(rows[s..]) then [] else [rows[|rows| - 1].table]);
    }
  }

  /** DBUtil::RepairTables: true iff the repair statement ran and its
      result rows leave no table crashed. The table names only shape the
      statement text, which is not modelled. */
  function RepairTables(connected: bool, reply: Option<seq<Row>>): (ok: bool)
    ensures ok ==> reply.Some? && CrashedTables(reply.value) == []
    ensures !connected ==> !ok
    ensures connected && reply.Some? && CrashedTables(reply.value) == [] ==> ok
  {
    if !connected then false
    else match reply
      case None => false
      case Some(rows) => CrashedTables(rows) == []
  }

  /** The result of CheckTables and the tables it handed to RepairTables. */
  datatype CheckOutcome = CheckOutcome(ok: bool, repairRequested: seq<string>)

  /** DBUtil::CheckTables. `tables` is what GetTables returned for the
      MyISAM engine (empty also when that lookup failed), `check` the rows
      of CHECK TABLE (None when it failed), and the last two arguments the
      connection and rows RepairTables would see. */
  function CheckTables(repair: bool, connected: bool, tables: seq<string>, check: Option<seq<Row>>,
                       repairConnected: bool, repairReply: Option<seq<Row>>): (r: CheckOutcome)
    ensures !connected ==> !r.ok && r.repairRequested == []
    ensures connected && tables == [] ==> r.ok && r.repairRequested == []
    ensures r.repairRequested != [] ==> repair && check.Some? && r.repairRequested == CrashedTables(check.value)
    ensures r.ok && tables != [] ==> check.Some?
    ensures r.ok && tables != [] && !repair ==> CrashedTables(check.value) == []
    ensures r.ok && r.repairRequested != [] ==> repairReply.Some? && CrashedTables(repairReply.value) == []
    ensures connected && tables != [] && check.Some? && CrashedTables(check.value) != [] && repair
            ==> r.repairRequested == CrashedTables(check.value)
    ensures connected && tables != [] && check.Some? && CrashedTables(check.value) == []
            ==> r.ok && r.repairRequested == []
    ensures connected && tables != [] && check.Some? && CrashedTables(check.value) != []
            ==> r.ok == (repair && RepairTables(repairConnected, repairReply))
  {
    if !connected then CheckOutcome(false, [])
    else if tables == [] then CheckOutcome(true, [])
    else match check
      case None => CheckOutcome(false, [])
      case Some(rows) =>
        var crashed := CrashedTables(rows);
        if crashed == [] then CheckOutcome(true, [])
        else if repair then CheckOutcome(RepairTables(repairConnected, repairReply), crashed)
        else CheckOutcome(false, [])
  }

  /** DBUtil::GetTables: the listed table names, or none when the
      connection or the query failed. */
  function GetTables(listing: Option<seq<string>>): (tables: seq<string>)
    ensures listing.Some? ==> tables == listing.value
    ensures listing.None? ==> tables == []
  {
    listing.GetOr([])
  }

  /** A failed table listing reads as no tables: IsNewDatabase then calls
      the database new, and CheckTables, when connected, reports success
      without checking or repairing anything. */
  lemma FailedListingLooksEmpty(repair: bool, connected: bool, check: Option<seq<Row>>,
                                repairConnected: bool, repairReply: Option<seq<Row>>)
    ensures IsNewDatabase(GetTables(None))
    ensures connected ==>
      CheckTables(repair, connected, GetTables(None), check, repairConnected, repairReply)
        == CheckOutcome(true, [])
  {
  }

  /** A table name as GetTables reports it: `schema`.`table`. */
  function QualifiedName(schema: string, table: string): string {
    "`" + schema + "`.`" + table + "`"
  }

  const SchemaLockSuffix: string := ".`schemalock`"

  /** DBUtil::IsNewDatabase: no tables, or exactly one whose qualified
      name ends in .`schemalock`. */
  function IsNewDatabase(tables: seq<string>): (isNew: bool)
    ensures |tables| == 0 ==> isNew
    ensures |tables| >= 2 ==> !isNew
    ensures |tables| == 1 ==> (isNew <==> EndsWith(tables[0], SchemaLockSuffix))
  {
    (|tables| == 1 && EndsWith(tables[0], SchemaLockSuffix)) || |tables| == 0
  }

  /** For a table name without backquotes, a single-table database is new
      exactly when that table is the schema lock table, whatever the
      schema is called. */
  lemma SingleTableNewIffSchemaLock(schema: string, table: string)
    requires forall i :: 0 <= i < |table| ==> table[i] != '`'
    ensures IsNewDatabase([QualifiedName(schema, table)]) <==> table == "schemalock"
  {
    QualifiedNameTail(schema, table);
    if |table| >= 11 {
      LongTableNotLock(schema, table);
    } else if |table| <= 9 {
      ShortTableNotLock(schema, table);
    } else {
      TenCharTableLock(schema, table);
    }
  }

  lemma LongTableNotLock(schema: string, table: string)
    requires |table| >= 11 && table[|table| - 11] != '`'
    ensures !EndsWith(QualifiedName(schema, table), SchemaLockSuffix)
  {
    var q := QualifiedName(schema, table);
    QualifiedNameTail(schema, table);
    var n := |q|;
    assert q[n - 12] == table[|table| - 11];
    assert q[n - 13..][1] != SchemaLockSuffix[1];
  }

  lemma ShortTableNotLock(schema: string, table: string)
    requires |table| <= 9
    ensures !EndsWith(QualifiedName(schema, table), SchemaLockSuffix)
  {
    var q := QualifiedName(schema, table);
    QualifiedNameTail(schema, table);
    var n := |q|;
    var t := |table|;
    if n >= 13 {
      var k := 11 - t;
      assert q[n - 13 + k] == q[n - 2 - t] == '`';
      assert SchemaLockSuffix[k] != '`';
      assert q[n - 13..][k] != SchemaLockSuffix[k];
    }
  }

  lemma TenCharTableLock(schema: string, table: string)
    requires |table| == 10
    ensures EndsWith(QualifiedName(schema, table), SchemaLockSuffix) <==> table == "schemalock"
  {
    var q := QualifiedName(schema, table);
    QualifiedNameTail(schema, table);
    var n := |q|;
    if EndsWith(q, SchemaLockSuffix) {
      forall m | 0 <= m < 10
        ensures table[m] == "schemalock"[m]
      {
        assert table[m] == q[n - 11 + m] == q[n - 13..][m + 2];
      }
    }
    if table == "schemalock" {
      assert q[n - 13..] == SchemaLockSuffix;
    }
  }

  /** The layout of the end of a qualified name: the table name between
      two backquotes, as the last characters. */
  lemma QualifiedNameTail(schema: string, table: string)
    ensures var q := QualifiedName(schema, table);
      && |q| == |schema| + |table| + 5
      && q[|q| - 1] == '`'
      && q[|q| - 2 - |table|] == '`'
      && forall m :: 0 <= m < |table| ==> q[|q| - 1 - |table| + m] == table[m]
  {
    var head := "`" + schema + "`.`";
    assert QualifiedName(schema, table) == head + table + "`";
  }

  /** Two or more tables never make a new database. */
  lemma SeveralTablesNotNew(tables: seq<string>)
    requires |tables| >= 2
    ensures !IsNewDatabase(tables)
  {
  }

  /** DBUtil::CountClients: the rows of SHOW PROCESSLIST using this
      database, divided by the four connections an average program holds,
      rounded up; 0 when not connected or when the query fails.
      `processList` holds the db column of each row. */
  method CountClients(connected: bool, processList: Option<seq<string>>, dbName: string) returns (count: nat)
    ensures !connected || processList.None? ==> count == 0
    ensures connected && processList.Some? ==>
      var c := multiset(processList.value)[dbName];
      4 * count >= c && 4 * count < c + 4
  {
    if !connected || processList.None? {
      return 0;
    }
    var dbs := processList.value;
    var n := 0;
    var i := 0;
    while i < |dbs|
      invariant 0 <= i <= |dbs|
      invariant n == multiset(dbs[..i])[dbName]
    {
      assert dbs[..i + 1] == dbs[..i] + [dbs[i]];
      if dbs[i] == dbName {
        n := n + 1;
      }
      i := i + 1;
    }
    assert dbs[..|dbs|] == dbs;
    count := (n + 3) / 4;
  }

  /** Statements issued on the connection that takes the schema lock. */
  datatype LockStatement = CreateSchemaLockTable | LockSchemaLockTable | UnlockTables

  /** Whether the lock was taken and which statements were issued. */
  datatype LockAttempt = LockAttempt(acquired: bool, issued: seq<LockStatement>)

  /** DBUtil::lockSchema: create the schemalock table if absent, then lock
      it for writing; the lock is attempted only after the create
      succeeded, and the result is true only if both succeeded. */
  function LockSchema(createOk: bool, lockOk: bool): (r: LockAttempt)
    ensures r.acquired <==> createOk && lockOk
    ensures |r.issued| >= 1 && r.issued[0] == CreateSchemaLockTable
    ensures LockSchemaLockTable in r.issued <==> createOk
    ensures UnlockTables !in r.issued
  {
    if !createOk then LockAttempt(false, [CreateSchemaLockTable])
    else LockAttempt(lockOk, [CreateSchemaLockTable, LockSchemaLockTable])
  }

  /** DBUtil::unlockSchema: always issues UNLOCK TABLES, whatever the
      outcome; a failure is only logged. */
  function UnlockSchema(): (issued: seq<LockStatement>)
    ensures UnlockTables in issued
    ensures CreateSchemaLockTable !in issued && LockSchemaLockTable !in issued
  {
    [UnlockTables]
  }

  /** A lock followed by an unlock, whatever either outcome: the session
      ends with UNLOCK TABLES, issues it nowhere else, and so releases
      every lock statement it sent. */
  lemma LockSessionEndsUnlocked(createOk: bool, lockOk: bool)
    ensures var session := LockSchema(createOk, lockOk).issued + UnlockSchema();
      && session[|session| - 1] == UnlockTables
      && (forall i :: 0 <= i < |session| - 1 ==> session[i] != UnlockTables)
      && multiset(session)[UnlockTables] == 1
  {
    var a := LockSchema(createOk, lockOk).issued;
    var session := a + UnlockSchema();
    assert UnlockSchema() == [UnlockTables];
    forall i | 0 <= i < |session| - 1
      ensures session[i] != UnlockTables
    {
      assert session[i] == a[i];
    }
    assert multiset(a)[UnlockTables] == 0;
  }
}

=== FILE: text.dfy ===
/** String helpers shared by the database utilities and the Vorbis comment
    code: ASCII case mapping, the QString search primitives the original
    code relies on, and decimal formatting and parsing.

    Strings are sequences of characters; case mapping covers ASCII letters
    only (the Qt and C library routines also map other scripts). */
module Text {

  predicate IsDigit(c: char) {
    '0' <= c <= '9'
  }

  /** Every character of s is a decimal digit. */
  predicate IsDigits(s: string) {
    forall i :: 0 <= i < |s| ==> IsDigit(s[i])
  }

  function DigitValue(c: char): nat
    requires IsDigit(c)
  {
    c as int - '0' as int
  }

  function DigitChar(d: nat): (c: char)
    requires d < 10
    ensures IsDigit(c) && DigitValue(c) == d
  {
    ('0' as int + d) as char
  }

  function ToUpperChar(c: char): char {
    if 'a' <= c <= 'z' then (c as int - 'a' as int + 'A' as int) as char else c
  }

  function ToLowerChar(c: char): char {
    if 'A' <= c <= 'Z' then (c as int - 'A' as int + 'a' as int) as char else c
  }

  function ToUpper(s: string): (u: string)
    ensures |u| == |s|
    ensures forall i :: 0 <= i < |s| ==> u[i] == ToUpperChar(s[i])
  {
    seq(|s|, i requires 0 <= i < |s| => ToUpperChar(s[i]))
  }

  function ToLower(s: string): (l: string)
    ensures |l| == |s|
    ensures forall i :: 0 <= i < |s| ==> l[i] == ToLowerChar(s[i])
  {
    seq(|s|, i requires 0 <= i < |s| => ToLowerChar(s[i]))
  }

  predicate StartsWith(s: string, prefix: string) {
    |prefix| <= |s| && s[..|prefix|] == prefix
  }

  predicate EndsWith(s: string, suffix: string) {
    |suffix| <= |s| && s[|s| - |suffix|..] == suffix
  }

  /** sub occurs somewhere in s. */
  predicate Contains(s: string, sub: string)
    decreases |s|
  {
    StartsWith(s, sub) || (|s| > 0 && Contains(s[1..], sub))
  }

  /** QString::find(c): index of the first occurrence of c, or -1. */
  function Find(s: string, c: char): (k: int)
    ensures -1 <= k < |s|
    ensures k >= 0 ==> s[k] == c
    ensures forall j :: 0 <= j < |s| && (k < 0 || j < k) ==> s[j] != c
  {
    if |s| == 0 then -1
    else if s[0] == c then 0
    else var k := Find(s[1..], c); if k < 0 then -1 else k + 1
  }

  /** QString::left(n): the first n characters, or the whole string when n
      is negative or not smaller than the length. */
  function Left(s: string, n: int): string {
    if n < 0 || n >= |s| then s else s[..n]
  }

  /** The first n characters of s, or all of s when it is shorter. */
  function Take(s: string, n: nat): string {
    if n < |s| then s[..n] else s
  }

  function Pow10(n: nat): (p: nat)
    ensures p >= 1
  {
    if n == 0 then 1 else 10 * Pow10(n - 1)
  }

  /** Value of a string of decimal digits. */
  function DecimalValue(s: string): nat
    requires IsDigits(s)
  {
    if |s| == 0 then 0
    else 10 * DecimalValue(s[..|s| - 1]) + DigitValue(s[|s| - 1])
  }

  /** n written with exactly `width` digits, zero-padded on the left. */
  function PadDecimal(n: nat, width: nat): (s: string)
    ensures |s| == width && IsDigits(s)
  {
    if width == 0 then [] else PadDecimal(n / 10, width - 1) + [DigitChar(n % 10)]
  }

  /** n in decimal without leading zeros (printf "%u"). */
  function NatText(n: nat): (s: string)
    ensures |s| >= 1 && IsDigits(s)
  {
    if n < 10 then [DigitChar(n)] else NatText(n / 10) + [DigitChar(n % 10)]
  }

  /** n in decimal with a leading '-' when negative (printf "%d"). */
  function IntText(n: int): string {
    if n < 0 then "-" + NatText(-n) else NatText(n)
  }

  /** Length of the run of decimal digits at the start of s. */
  function LeadingDigits(s: string): (n: nat)
    ensures n <= |s|
    ensures forall i :: 0 <= i < n ==> IsDigit(s[i])
    ensures n < |s| ==> !IsDigit(s[n])
  {
    if |s| == 0 || !IsDigit(s[0]) then 0 else 1 + LeadingDigits(s[1..])
  }

  predicate IsSpace(c: char) {
    c == ' ' || c == '\t' || c == '\n' || c == '\r' || c == '\U{0B}' || c == '\U{0C}'
  }

  function SkipSpace(s: string): string {
    if |s| > 0 && IsSpace(s[0]) then SkipSpace(s[1..]) else s
  }

  /** C's atoi: optional leading white space, an optional sign, then the
      longest run of digits; 0 when there are none. */
  function Atoi(s: string): int {
    var t := SkipSpace(s);
    if |t| > 0 && (t[0] == '-' || t[0] == '+') then
      var u := t[1..];
      var v: int := DecimalValue(u[..LeadingDigits(u)]);
      if t[0] == '-' then -v else v
    else
      DecimalValue(t[..LeadingDigits(t)])
  }

  /** Reading back a zero-padded field gives the number, when it fits. */
  lemma {:induction false} PadDecimalRoundTrip(n: nat, width: nat)
    requires n < Pow10(width)
    ensures DecimalValue(PadDecimal(n, width)) == n
  {
    if width > 0 {
      PadDecimalRoundTrip(n / 10, width - 1);
      var s := PadDecimal(n, width);
      assert s[..|s| - 1] == PadDecimal(n / 10, width - 1);
    }
  }

  /** Zero-padding the value of a digit string to its own width gives the
      string back. */
  lemma {:induction false} PadDecimalOfValue(s: string)
    requires IsDigits(s)
    ensures PadDecimal(DecimalValue(s), |s|) == s
  {
    if |s| > 0 {
      var p := s[..|s| - 1];
      var c := s[|s| - 1];
      assert IsDigits(p);
      PadDecimalOfValue(p);
      assert DigitChar(DigitValue(c)) == c;
      assert s == p + [c];
    }
  }

  /** Reading back the decimal text of n gives n. */
  lemma {:induction false} NatTextRoundTrip(n: nat)
    ensures DecimalValue(NatText(n)) == n
  {
    var s := NatText(n);
    if n >= 10 {
      NatTextRoundTrip(n / 10);
      assert s[..|s| - 1] == NatText(n / 10);
    }
  }

  /** Numbers below 10^k need at most k digits. */
  lemma {:induction false} NatTextLength(n: nat, k: nat)
    requires 1 <= k && n < Pow10(k)
    ensures |NatText(n)| <= k
  {
    if n >= 10 {
      NatTextLength(n / 10, k - 1);
    }
  }

  /** atoi reads back what printf "%d" wrote. */
  lemma AtoiIntText(n: int)
    ensures Atoi(IntText(n)) == n
  {
    var m: nat := if n < 0 then -n else n;
    var d := NatText(m);
    NatTextRoundTrip(m);
    assert LeadingDigits(d) == |d|;
    assert d[..|d|] == d;
    if n < 0 {
      assert IntText(n)[1..] == d;
    }
  }
}

=== FILE: vorbis_comment.dfy ===
/** MythMusic's Ogg Vorbis tag handling: the rewrite of a file's comment
    list from a track's metadata (getRawVorbisComment), the lookup of one
    comment (getComment, over libvorbis's vorbis_comment_query), reading a
    track's metadata (read) and writing it back (write).

    A comment list is a sequence of "TAG=value" strings. Stream decoding
    and encoding, file handles and the temporary file are replaced by the
    outcomes they produce. */
module VorbisComment {
  import opened Text
  import opened Wrappers

  /** The fields of a track that the tags carry. */
  datatype Metadata = Metadata(
    filename: string, artist: string, album: string, title: string,
    genre: string, year: int, track: int, length: int)

  /** The tags the rewrite owns; every other tag is left alone. */
  const ManagedTags: seq<string> := ["ARTIST", "TITLE", "ALBUM", "GENRE", "TRACKNUMBER"]

  /** A tag name written in upper-case letters only, as all the managed
      tags are. */
  predicate IsUpperWord(tag: string) {
    |tag| > 0 && forall i :: 0 <= i < |tag| ==> 'A' <= tag[i] <= 'Z'
  }

  /** A text without '='. */
  predicate NoEquals(key: string) {
    forall i :: 0 <= i < |key| ==> key[i] != '='
  }

  lemma ManagedTagsAreUpperWords(tag: string)
    requires tag in ManagedTags
    ensures IsUpperWord(tag)
  {
  }

  // ---------------------------------------------------------------------
  // Filtering the existing comments

  /** The text before the first '=', or the whole entry when it has none
      (QString::left of the -1 that find returns). */
  function TagName(e: string): string {
    Left(e, Find(e, '='))
  }

  /** Whether the rewrite keeps an existing entry: its '=' is not the first
      character and its upper-cased tag name is not a managed tag. */
  predicate Preserved(e: string) {
    Find(e, '=') != 0 && ToUpper(TagName(e)) !in ManagedTags
  }

  /** The existing entries the rewrite keeps, in their order. */
  function KeepUnmanaged(entries: seq<string>): (kept: seq<string>)
    ensures |kept| <= |entries|
    ensures forall i :: 0 <= i < |kept| ==> Preserved(kept[i])
    decreases |entries|
  {
    if |entries| == 0 then []
    else (if Preserved(entries[0]) then [entries[0]] else []) + KeepUnmanaged(entries[1..])
  }

  /** An entry survives exactly when it was there and is preserved. */
  lemma {:induction false} KeepUnmanagedMembers(entries: seq<string>, e: string)
    ensures e in KeepUnmanaged(entries) <==> e in entries && Preserved(e)
    decreases |entries|
  {
    if |entries| > 0 {
      KeepUnmanagedMembers(entries[1..], e);
      assert entries == [entries[0]] + entries[1..];
    }
  }

  /** Filtering works entry by entry, so it keeps the order. */
  lemma {:induction false} KeepUnmanagedAppend(a: seq<string>, b: seq<string>)
    ensures KeepUnmanaged(a + b) == KeepUnmanaged(a) + KeepUnmanaged(b)
    decreases |a|
  {
    if |a| > 0 {
      assert (a + b)[0] == a[0];
      assert (a + b)[1..] == a[1..] + b;
      KeepUnmanagedAppend(a[1..], b);
    } else {
      assert a + b == b;
    }
  }

  /** A list of preserved entries is kept whole. */
  lemma {:induction false} KeepUnmanagedAll(entries: seq<string>)
    requires forall i :: 0 <= i < |entries| ==> Preserved(entries[i])
    ensures KeepUnmanaged(entries) == entries
    decreases |entries|
  {
    if |entries| > 0 {
      KeepUnmanagedAll(entries[1..]);
      assert entries == [entries[0]] + entries[1..];
    }
  }

  /** A list with no preserved entry is dropped whole. */
  lemma {:induction false} KeepUnmanagedNone(entries: seq<string>)
    requires forall i :: 0 <= i < |entries| ==> !Preserved(entries[i])
    ensures KeepUnmanaged(entries) == []
    decreases |entries|
  {
    if |entries| > 0 {
      KeepUnmanagedNone(entries[1..]);
    }
  }

  /** An entry NAME=value, NAME free of '=', is kept exactly when NAME is
      not empty and does not spell a managed tag in any letter case. */
  lemma PreservedEntry(name: string, value: string)
    requires NoEquals(name)
    ensures Find(name + "=" + value, '=') == |name|
    ensures TagName(name + "=" + value) == name
    ensures Preserved(name + "=" + value) <==> |name| > 0 && ToUpper(name) !in ManagedTags
  {
    var e := name + "=" + value;
    assert e[|name|] == '=';
    assert forall j :: 0 <= j < |name| ==> e[j] == name[j];
    assert e[..|name|] == name;
  }

  /** A managed tag written in lower case is removed too. */
  lemma LowerCaseTagRemoved()
    ensures !Preserved("artist=x")
  {
    ArtistLabel();
    PreservedEntry("artist", "x");
    assert "artist" + "=" + "x" == "artist=x";
  }

  /** An upper-case word is its own upper case. */
  lemma UpperWordFixed(t: string)
    requires IsUpperWord(t)
    ensures ToUpper(t) == t
  {
  }

  /** Other tags are kept. */
  lemma OtherTagKept(value: string)
    ensures Preserved("COMMENT=" + value)
  {
    PreservedEntry("COMMENT", value);
    assert "COMMENT" + "=" + value == "COMMENT=" + value;
    UpperWordFixed("COMMENT");
  }

  /** An entry with an empty tag name is removed. */
  lemma EmptyNameNotPreserved(value: string)
    ensures !Preserved("=" + value)
  {
    assert ("=" + value)[0] == '=';
  }

  // ---------------------------------------------------------------------
  // The managed entries

  /** vorbis_comment_add_tag: the entry TAG=value. */
  function TagEntry(tag: string, value: string): string {
    tag + "=" + value
  }

  /** The managed entry for one field, when the field is set. */
  function Optional(tag: string, value: string, present: bool): seq<string> {
    if present then [TagEntry(tag, value)] else []
  }

  /** snprintf(buf, 9, "%d", track): the decimal text, cut to 8
      characters. */
  function TrackText(track: int): (t: string)
    ensures |t| <= 8
  {
    Take(IntText(track), 8)
  }

  /** A managed field of the metadata: its tag, the text written for it,
      and whether it is set. */
  datatype Field = Field(tag: string, value: string, present: bool)

  /** The managed fields in the order they are appended; the track counts
      as set when it is not zero. */
  function ManagedFields(m: Metadata): (fields: seq<Field>)
    ensures |fields| == |ManagedTags|
    ensures forall i :: 0 <= i < |fields| ==> fields[i].tag == ManagedTags[i]
  {
    [ Field("ARTIST", m.artist, m.artist != ""),
      Field("TITLE", m.title, m.title != ""),
      Field("ALBUM", m.album, m.album != ""),
      Field("GENRE", m.genre, m.genre != ""),
      Field("TRACKNUMBER", TrackText(m.track), m.track != 0) ]
  }

  /** The entries for a list of fields: one per set field, in order. */
  function EntriesOf(fields: seq<Field>): seq<string>
    decreases |fields|
  {
    if |fields| == 0 then []
    else Optional(fields[0].tag, fields[0].value, fields[0].present) + EntriesOf(fields[1..])
  }

  /** The managed entries appended after the kept ones. */
  function ManagedEntries(m: Metadata): seq<string> {
    EntriesOf(ManagedFields(m))
  }

  /** The value of the first set field with the given tag. */
  function FieldLookup(fields: seq<Field>, tag: string): Option<string>
    decreases |fields|
  {
    if |fields| == 0 then None
    else if fields[0].present && fields[0].tag == tag then Some(fields[0].value)
    else FieldLookup(fields[1..], tag)
  }

  /** How many set fields have the given tag. */
  function FieldCount(fields: seq<Field>, tag: string): nat
    decreases |fields|
  {
    if |fields| == 0 then 0
    else (if fields[0].present && fields[0].tag == tag then 1 else 0) + FieldCount(fields[1..], tag)
  }

  /** Every field carries a managed tag. */
  predicate ManagedFieldTags(fields: seq<Field>) {
    forall i :: 0 <= i < |fields| ==> fields[i].tag in ManagedTags
  }

  /** No two fields share a tag. */
  predicate DistinctFieldTags(fields: seq<Field>) {
    forall i, j :: 0 <= i < j < |fields| ==> fields[i].tag != fields[j].tag
  }

  /** The managed tags are pairwise different, so the managed fields are
      too. */
  lemma ManagedFieldsDistinct(m: Metadata)
    ensures ManagedFieldTags(ManagedFields(m))
    ensures DistinctFieldTags(ManagedFields(m))
  {
    assert forall i, j :: 0 <= i < j < |ManagedTags| ==> ManagedTags[i] != ManagedTags[j];
  }

  /** With distinct tags a tag is counted once when some field sets it and
      never otherwise. */
  lemma {:induction false} FieldCountOfDistinct(fields: seq<Field>, tag: string)
    requires DistinctFieldTags(fields)
    ensures FieldCount(fields, tag) == if FieldLookup(fields, tag).Some? then 1 else 0
    decreases |fields|
  {
    if |fields| > 0 {
      FieldCountOfDistinct(fields[1..], tag);
      if fields[0].present && fields[0].tag == tag {
        NoLaterField(fields[1..], fields[0].tag);
      }
    }
  }

  /** A tag absent from every field is never found. */
  lemma {:induction false} NoLaterField(fields: seq<Field>, tag: string)
    requires forall i :: 0 <= i < |fields| ==> fields[i].tag != tag
    ensures FieldLookup(fields, tag).None?
    decreases |fields|
  {
    if |fields| > 0 {
      NoLaterField(fields[1..], tag);
    }
  }

  /** MetaIOOggVorbisComment::getRawVorbisComment: nothing without
      metadata; otherwise the existing entries that are kept (none when
      there is no existing list), then the managed entries. */
  function RawVorbisComment(m: Option<Metadata>, existing: Option<seq<string>>): (r: Option<seq<string>>)
    ensures r.None? <==> m.None?
  {
    match m
    case None => None
    case Some(md) => Some(KeepUnmanaged(existing.GetOr([])) + ManagedEntries(md))
  }

  /** The tag name of an entry made from an upper-case tag is that tag. */
  lemma EntryTagName(tag: string, value: string)
    requires IsUpperWord(tag)
    ensures Find(TagEntry(tag, value), '=') == |tag|
    ensures TagName(TagEntry(tag, value)) == tag
    ensures ToUpper(tag) == tag
  {
    var e := TagEntry(tag, value);
    assert e[|tag|] == '=';
    assert forall j :: 0 <= j < |tag| ==> e[j] == tag[j];
    assert e[..|tag|] == tag;
  }

  /** Managed entries are never kept by a later rewrite. */
  lemma ManagedEntryNotPreserved(tag: string, value: string)
    requires tag in ManagedTags
    ensures !Preserved(TagEntry(tag, value))
    ensures ToUpper(TagName(TagEntry(tag, value))) == tag
  {
    ManagedTagsAreUpperWords(tag);
    EntryTagName(tag, value);
  }

  /** Every entry carries a managed tag name. */
  predicate AllManaged(entries: seq<string>) {
    forall i :: 0 <= i < |entries| ==> ToUpper(TagName(entries[i])) in ManagedTags
  }

  lemma AllManagedAppend(a: seq<string>, b: seq<string>)
    requires AllManaged(a) && AllManaged(b)
    ensures AllManaged(a + b)
  {
    assert forall i :: |a| <= i < |a + b| ==> (a + b)[i] == b[i - |a|];
  }

  lemma OptionalManaged(tag: string, value: string, present: bool)
    requires tag in ManagedTags
    ensures AllManaged(Optional(tag, value, present))
  {
    ManagedEntryNotPreserved(tag, value);
  }

  /** Entries made from managed fields all carry managed tag names. */
  lemma {:induction false} EntriesAllManaged(fields: seq<Field>)
    requires ManagedFieldTags(fields)
    ensures AllManaged(EntriesOf(fields))
    decreases |fields|
  {
    if |fields| > 0 {
      OptionalManaged(fields[0].tag, fields[0].value, fields[0].present);
      EntriesAllManaged(fields[1..]);
      AllManagedAppend(Optional(fields[0].tag, fields[0].value, fields[0].present), EntriesOf(fields[1..]));
    }
  }

  /** The managed entries all carry managed tag names, so none of them is
      preserved by a later rewrite. */
  lemma ManagedEntriesAllManaged(m: Metadata)
    ensures AllManaged(ManagedEntries(m))
    ensures forall i :: 0 <= i < |ManagedEntries(m)| ==> !Preserved(ManagedEntries(m)[i])
  {
    ManagedFieldsDistinct(m);
    EntriesAllManaged(ManagedFields(m));
  }

  /** What the rewrite holds: the kept existing entries and the managed
      entries, nothing else. */
  lemma RewriteMembers(m: Metadata, existing: seq<string>, e: string)
    ensures e in RawVorbisComment(Some(m), Some(existing)).value
      <==> (e in existing && Preserved(e)) || e in ManagedEntries(m)
  {
    KeepUnmanagedMembers(existing, e);
  }

  /** Rewriting a rewritten list with the same metadata changes nothing. */
  lemma RewriteIdempotent(m: Metadata, existing: Option<seq<string>>)
    ensures var once := RawVorbisComment(Some(m), existing).value;
      RawVorbisComment(Some(m), Some(once)) == Some(once)
  {
    var kept := KeepUnmanaged(existing.GetOr([]));
    var once := kept + ManagedEntries(m);
    KeepUnmanagedAppend(kept, ManagedEntries(m));
    KeepUnmanagedAll(kept);
    ManagedEntriesAllManaged(m);
    KeepUnmanagedNone(ManagedEntries(m));
    assert kept + [] == kept;
  }

  /** Rewriting an emptied list leaves only managed entries. */
  lemma ExclusiveRewriteOnlyManaged(m: Metadata)
    ensures AllManaged(RawVorbisComment(Some(m), Some([])).value)
  {
    ManagedEntriesAllManaged(m);
    assert KeepUnmanaged([]) == [];
    assert [] + ManagedEntries(m) == ManagedEntries(m);
  }

  // ---------------------------------------------------------------------
  // No doublers

  /** How many entries have the given upper-cased tag name. */
  function CountTag(entries: seq<string>, tag: string): nat
    decreases |entries|
  {
    if |entries| == 0 then 0
    else (if ToUpper(TagName(entries[0])) == tag then 1 else 0) + CountTag(entries[1..], tag)
  }

  lemma {:induction false} CountTagAppend(a: seq<string>, b: seq<string>, tag: string)
    ensures CountTag(a + b, tag) == CountTag(a, tag) + CountTag(b, tag)
    decreases |a|
  {
    if |a| > 0 {
      assert (a + b)[0] == a[0];
      assert (a + b)[1..] == a[1..] + b;
      CountTagAppend(a[1..], b, tag);
    } else {
      assert a + b == b;
    }
  }

  /** Preserved entries never carry a managed tag name. */
  lemma {:induction false} CountTagPreserved(entries: seq<string>, tag: string)
    requires tag in ManagedTags
    requires forall i :: 0 <= i < |entries| ==> Preserved(entries[i])
    ensures CountTag(entries, tag) == 0
    decreases |entries|
  {
    if |entries| > 0 {
      CountTagPreserved(entries[1..], tag);
    }
  }

  lemma CountOptional(t: string, value: string, present: bool, tag: string)
    requires t in ManagedTags
    ensures CountTag(Optional(t, value, present), tag) == if present && t == tag then 1 else 0
  {
    if present {
      ManagedEntryNotPreserved(t, value);
      assert [TagEntry(t, value)][1..] == [];
    }
  }

  /** After the rewrite each managed tag appears once when its field is
      set and not at all otherwise, whatever the existing list held. */
  lemma RewriteHasNoDoublers(m: Metadata, existing: Option<seq<string>>, tag: string)
    requires tag in ManagedTags
    ensures CountTag(RawVorbisComment(Some(m), existing).value, tag)
      == if FieldLookup(ManagedFields(m), tag).Some? then 1 else 0
  {
    var kept := KeepUnmanaged(existing.GetOr([]));
    CountTagAppend(kept, ManagedEntries(m), tag);
    CountTagPreserved(kept, tag);
    ManagedFieldsDistinct(m);
    CountEntries(ManagedFields(m), tag);
    FieldCountOfDistinct(ManagedFields(m), tag);
  }

  /** Counting entries by tag counts the set fields with that tag. */
  lemma {:induction false} CountEntries(fields: seq<Field>, tag: string)
    requires ManagedFieldTags(fields)
    ensures CountTag(EntriesOf(fields), tag) == FieldCount(fields, tag)
    decreases |fields|
  {
    if |fields| > 0 {
      var f := fields[0];
      CountEntries(fields[1..], tag);
      CountTagAppend(Optional(f.tag, f.value, f.present), EntriesOf(fields[1..]), tag);
      CountOptional(f.tag, f.value, f.present, tag);
    }
  }

  // ---------------------------------------------------------------------
  // Looking a comment up

  /** vorbis_comment_query's test: the entry starts with key and '=',
      letters compared without regard to case. */
  predicate Matches(e: string, key: string) {
    |e| > |key| && ToUpper(e[..|key| + 1]) == ToUpper(key + "=")
  }

  /** vorbis_comment_query(comment, key, 0): the value of the first
      matching entry. */
  function QueryComment(entries: seq<string>, key: string): (r: Option<string>)
    ensures r.None? <==> forall i :: 0 <= i < |entries| ==> !Matches(entries[i], key)
    decreases |entries|
  {
    if |entries| == 0 then None
    else if Matches(entries[0], key) then Some(entries[0][|key| + 1..])
    else QueryComment(entries[1..], key)
  }

  /** MetaIOOggVorbisComment::getComment: the value, or the empty string
      when there is no comment block or no matching entry. */
  function GetComment(comment: Option<seq<string>>, key: string): (value: string)
    ensures comment.None? ==> value == ""
    ensures comment.Some? && QueryComment(comment.value, key).None? ==> value == ""
  {
    match comment
    case None => ""
    case Some(entries) => QueryComment(entries, key).GetOr("")
  }

  lemma {:induction false} QueryAppend(a: seq<string>, b: seq<string>, key: string)
    ensures QueryComment(a + b, key)
      == if QueryComment(a, key).Some? then QueryComment(a, key) else QueryComment(b, key)
    decreases |a|
  {
    if |a| > 0 {
      assert (a + b)[0] == a[0];
      assert (a + b)[1..] == a[1..] + b;
      QueryAppend(a[1..], b, key);
    } else {
      assert a + b == b;
    }
  }

  /** An entry that matches a key has that key as its tag name, up to
      letter case. */
  lemma MatchTagName(e: string, key: string)
    requires NoEquals(key) && Matches(e, key)
    ensures Find(e, '=') == |key|
    ensures ToUpper(TagName(e)) == ToUpper(key)
  {
    var n := |key|;
    var up := ToUpper(e[..n + 1]);
    assert up[n] == ToUpperChar(e[n]) && ToUpper(key + "=")[n] == '=';
    assert e[n] == '=';
    forall j | 0 <= j < n
      ensures e[j] != '='
    {
      assert up[j] == ToUpperChar(e[j]) && ToUpper(key + "=")[j] == ToUpperChar(key[j]);
    }
    assert TagName(e) == e[..n];
    forall j | 0 <= j < n
      ensures ToUpper(e[..n])[j] == ToUpper(key)[j]
    {
      assert up[j] == ToUpperChar(e[j]) && ToUpper(key + "=")[j] == ToUpperChar(key[j]);
    }
  }

  /** An entry TAG=value matches a key exactly when the key spells TAG
      in some letter case, and then the query yields value. */
  lemma EntryMatches(tag: string, value: string, key: string)
    requires IsUpperWord(tag) && NoEquals(key)
    ensures Matches(TagEntry(tag, value), key) <==> ToUpper(key) == tag
    ensures Matches(TagEntry(tag, value), key) ==> TagEntry(tag, value)[|key| + 1..] == value
  {
    var e := TagEntry(tag, value);
    EntryTagName(tag, value);
    if Matches(e, key) {
      MatchTagName(e, key);
    }
    if ToUpper(key) == tag {
      assert e[..|key| + 1] == tag + "=";
      assert ToUpper(tag + "=") == ToUpper(key + "=");
    }
  }

  lemma QueryOptional(tag: string, value: string, present: bool, key: string)
    requires tag in ManagedTags && NoEquals(key)
    ensures QueryComment(Optional(tag, value, present), key)
      == if present && ToUpper(key) == tag then Some(value) else None
  {
    ManagedTagsAreUpperWords(tag);
    EntryMatches(tag, value, key);
    if present {
      assert [TagEntry(tag, value)][1..] == [];
    }
  }

  /** Kept entries never answer a query for a managed tag. */
  lemma KeptNeverMatch(entries: seq<string>, key: string)
    requires NoEquals(key) && ToUpper(key) in ManagedTags
    ensures QueryComment(KeepUnmanaged(entries), key).None?
  {
    var kept := KeepUnmanaged(entries);
    forall i | 0 <= i < |kept|
      ensures !Matches(kept[i], key)
    {
      if Matches(kept[i], key) {
        MatchTagName(kept[i], key);
      }
    }
  }

  /** After the rewrite, a query for a managed tag finds the value that
      was written for it, or nothing when its field is unset. */
  lemma QueryAfterRewrite(m: Metadata, existing: Option<seq<string>>, key: string)
    requires NoEquals(key) && ToUpper(key) in ManagedTags
    ensures QueryComment(RawVorbisComment(Some(m), existing).value, key)
      == FieldLookup(ManagedFields(m), ToUpper(key))
  {
    var kept := KeepUnmanaged(existing.GetOr([]));
    QueryAppend(kept, ManagedEntries(m), key);
    KeptNeverMatch(existing.GetOr([]), key);
    ManagedFieldsDistinct(m);
    QueryEntries(ManagedFields(m), key);
  }

  /** A query over the entries of some fields finds the first set field
      whose tag the label spells. */
  lemma {:induction false} QueryEntries(fields: seq<Field>, key: string)
    requires ManagedFieldTags(fields) && NoEquals(key)
    ensures QueryComment(EntriesOf(fields), key) == FieldLookup(fields, ToUpper(key))
    decreases |fields|
  {
    if |fields| > 0 {
      var f := fields[0];
      QueryEntries(fields[1..], key);
      QueryAppend(Optional(f.tag, f.value, f.present), EntriesOf(fields[1..]), key);
      QueryOptional(f.tag, f.value, f.present, key);
    }
  }

  /** Looking up the i-th managed tag among the managed fields gives that
      field's text when it is set. */
  lemma FieldLookupAt(m: Metadata, i: nat)
    requires i < |ManagedTags|
    ensures var f := ManagedFields(m)[i];
      FieldLookup(ManagedFields(m), ManagedTags[i]) == if f.present then Some(f.value) else None
  {
    ManagedFieldsDistinct(m);
    LookupDistinct(ManagedFields(m), i);
  }

  /** With distinct tags, looking up the tag of field i finds field i when
      it is set and nothing otherwise. */
  lemma {:induction false} LookupDistinct(fields: seq<Field>, i: nat)
    requires DistinctFieldTags(fields) && i < |fields|
    ensures FieldLookup(fields, fields[i].tag) == if fields[i].present then Some(fields[i].value) else None
    decreases i
  {
    if i == 0 {
      if !fields[0].present {
        NoLaterField(fields[1..], fields[0].tag);
      }
    } else {
      LookupDistinct(fields[1..], i - 1);
    }
  }

  /** The labels read uses for the managed fields. */
  lemma ArtistLabel()
    ensures NoEquals("artist") && ToUpper("artist") == "ARTIST"
  {
  }

  lemma TitleLabel()
    ensures NoEquals("title") && ToUpper("title") == "TITLE"
  {
  }

  lemma AlbumLabel()
    ensures NoEquals("album") && ToUpper("album") == "ALBUM"
  {
  }

  lemma GenreLabel()
    ensures NoEquals("genre") && ToUpper("genre") == "GENRE"
  {
  }

  lemma TrackLabel()
    ensures NoEquals("tracknumber") && ToUpper("tracknumber") == "TRACKNUMBER"
  {
  }

  /** A track number of at most eight characters survives the cut and
      reads back through atoi. */
  lemma TrackTextRoundTrip(track: int)
    requires -9999999 <= track <= 99999999
    ensures Atoi(TrackText(track)) == track
  {
    assert Pow10(7) == 10000000;
    assert Pow10(8) == 100000000;
    if track < 0 {
      NatTextLength(-track, 7);
    } else {
      NatTextLength(track, 8);
    }
    AtoiIntText(track);
  }

  /** Every managed field written by the rewrite reads back through
      getComment: the strings exactly (an empty one as the empty default),
      the track number through atoi when it has at most eight
      characters. */
  lemma GetCommentAfterRewrite(m: Metadata, existing: Option<seq<string>>)
    ensures var c := RawVorbisComment(Some(m), existing);
      && GetComment(c, "artist") == m.artist
      && GetComment(c, "title") == m.title
      && GetComment(c, "album") == m.album
      && GetComment(c, "genre") == m.genre
    ensures -9999999 <= m.track <= 99999999 ==>
      Atoi(GetComment(RawVorbisComment(Some(m), existing), "tracknumber")) == m.track
  {
    ArtistAfterRewrite(m, existing);
    TitleAfterRewrite(m, existing);
    AlbumAfterRewrite(m, existing);
    GenreAfterRewrite(m, existing);
    if -9999999 <= m.track <= 99999999 {
      TrackAfterRewrite(m, existing);
    }
  }

  lemma ArtistAfterRewrite(m: Metadata, existing: Option<seq<string>>)
    ensures GetComment(RawVorbisComment(Some(m), existing), "artist") == m.artist
  {
    ArtistLabel();
    QueryAfterRewrite(m, existing, "artist");
    FieldLookupAt(m, 0);
    assert ManagedTags[0] == "ARTIST";
  }

  lemma TitleAfterRewrite(m: Metadata, existing: Option<seq<string>>)
    ensures GetComment(RawVorbisComment(Some(m), existing), "title") == m.title
  {
    TitleLabel();
    QueryAfterRewrite(m, existing, "title");
    FieldLookupAt(m, 1);
    assert ManagedTags[1] == "TITLE";
  }

  lemma AlbumAfterRewrite(m: Metadata, existing: Option<seq<string>>)
    ensures GetComment(RawVorbisComment(Some(m), existing), "album") == m.album
  {
    AlbumLabel();
    QueryAfterRewrite(m, existing, "album");
    FieldLookupAt(m, 2);
    assert ManagedTags[2] == "ALBUM";
  }

  lemma GenreAfterRewrite(m: Metadata, existing: Option<seq<string>>)
    ensures GetComment(RawVorbisComment(Some(m), existing), "genre") == m.genre
  {
    GenreLabel();
    QueryAfterRewrite(m, existing, "genre");
    FieldLookupAt(m, 3);
    assert ManagedTags[3] == "GENRE";
  }

  lemma TrackAfterRewrite(m: Metadata, existing: Option<seq<string>>)
    requires -9999999 <= m.track <= 99999999
    ensures Atoi(GetComment(RawVorbisComment(Some(m), existing), "tracknumber")) == m.track
  {
    TrackLabel();
    QueryAfterRewrite(m, existing, "tracknumber");
    FieldLookupAt(m, 4);
    assert ManagedTags[4] == "TRACKNUMBER";
    if m.track != 0 {
      TrackTextRoundTrip(m.track);
    } else {
      assert Atoi("") == 0;
    }
  }

  // ---------------------------------------------------------------------
  // Reading

  /** What opening a file yields: it cannot be opened, it is not an Ogg
      Vorbis stream, or a stream with a comment block (possibly absent)
      and a length in milliseconds. */
  datatype OggFile = Unreadable | NotVorbis | Vorbis(comment: Option<seq<string>>, lengthMs: int)

  /** The fields MetaIO::readFromFilename leaves after guessing from the
      file name. */
  datatype FilenameGuess = FilenameGuess(artist: string, album: string, title: string, genre: string, track: int)

  /** The comment block of an opened stream, if any. */
  function CommentOf(file: OggFile): Option<seq<string>> {
    if file.Vorbis? then file.comment else None
  }

  /** MetaIOOggVorbisComment::read: the fields from the tags; when the
      title tag is missing or empty, the year is zeroed and the other
      fields come from the file name. */
  function Read(filename: string, file: OggFile, guess: FilenameGuess): (m: Metadata)
    ensures m.filename == filename
    ensures m.length == if file.Vorbis? then file.lengthMs else 0
    ensures GetComment(CommentOf(file), "title") == "" ==>
      && m.year == 0 && m.title == guess.title && m.artist == guess.artist
      && m.album == guess.album && m.genre == guess.genre && m.track == guess.track
    ensures GetComment(CommentOf(file), "title") != "" ==>
      && m.title == GetComment(CommentOf(file), "title")
      && m.artist == GetComment(CommentOf(file), "artist")
      && m.album == GetComment(CommentOf(file), "album")
      && m.genre == GetComment(CommentOf(file), "genre")
      && m.year == Atoi(GetComment(CommentOf(file), "date"))
      && m.track == Atoi(GetComment(CommentOf(file), "tracknumber"))
  {
    var c := CommentOf(file);
    var length := if file.Vorbis? then file.lengthMs else 0;
    var title := GetComment(c, "title");
    if title == "" then
      Metadata(filename, guess.artist, guess.album, guess.title, guess.genre, 0, guess.track, length)
    else
      Metadata(filename, GetComment(c, "artist"), GetComment(c, "album"), title,
               GetComment(c, "genre"), Atoi(GetComment(c, "date")), Atoi(GetComment(c, "tracknumber")), length)
  }

  /** Reading a file whose comments a rewrite produced gives back the
      metadata written, when it has a title and a track number of at most
      eight characters; the year is whatever DATE entry the file already
      had, since the rewrite does not manage that tag. */
  lemma ReadAfterRewrite(m: Metadata, existing: Option<seq<string>>, lengthMs: int, guess: FilenameGuess)
    requires m.title != ""
    requires -9999999 <= m.track <= 99999999
    ensures var r := Read(m.filename, Vorbis(RawVorbisComment(Some(m), existing), lengthMs), guess);
      && r.artist == m.artist && r.album == m.album && r.title == m.title
      && r.genre == m.genre && r.track == m.track && r.length == lengthMs
      && r.year == Atoi(GetComment(RawVorbisComment(Some(m), existing), "date"))
  {
    GetCommentAfterRewrite(m, existing);
  }

  // ---------------------------------------------------------------------
  // Writing

  /** The files involved in a write: each path with its comment list. */
  type Files = map<string, seq<string>>

  /** rename(from, to): moves the file, failing when the source is gone or
      the move is not allowed (another file system, permissions). */
  function Rename(fs: Files, from: string, to: string, allowed: bool): (r: Option<Files>)
    ensures r.Some? ==> from !in r.value || from == to
    ensures r.Some? ==> from in fs && to in r.value && r.value[to] == fs[from]
    ensures from !in fs || !allowed ==> r.None?
    ensures allowed && from in fs ==> r.Some?
    ensures r.Some? ==> forall p :: p in fs && p != from && p != to ==> p in r.value && r.value[p] == fs[p]
    ensures r.Some? ==> forall p :: p in r.value ==> p == to || p in fs
  {
    if allowed && from in fs then Some((fs - {from})[to := fs[from]]) else None
  }

  /** The outcomes a write meets: whether the input opens, the descriptor
      mkstemp returns and the six characters it fills in, whether the
      output stream opens, whether vcedit reads the stream and which
      comments it holds, whether vcedit writes it out, and whether renaming
      over the original is allowed. */
  datatype WriteIo = WriteIo(
    inputOpens: bool, tempFd: int, tempSuffix: string, outputOpens: bool,
    editOpens: bool, existing: seq<string>, editWrites: bool, renameAllowed: bool)

  /** Whether write reports success, and the comments the original path
      holds afterwards. */
  datatype WriteResult = WriteResult(reported: bool, stored: seq<string>)

  /** The comment list written to the temporary file, when every step
      before the rename succeeds: the existing comments (none when
      exclusive) rewritten with the metadata. A descriptor below 1 counts
      as a failed mkstemp. */
  function Prepared(m: Metadata, exclusive: bool, io: WriteIo): (r: Option<seq<string>>)
    ensures r.Some? <==> io.inputOpens && io.tempFd >= 1 && io.outputOpens && io.editOpens && io.editWrites
    ensures r.Some? ==> r == RawVorbisComment(Some(m), Some(if exclusive then [] else io.existing))
  {
    if !io.inputOpens || io.tempFd < 1 || !io.outputOpens || !io.editOpens || !io.editWrites then None
    else RawVorbisComment(Some(m), Some(if exclusive then [] else io.existing))
  }

  /** The temporary file's path: the file name, a dot and six characters
      from mkstemp; never the original path. */
  function TempPath(filename: string, suffix: string): (p: string)
    ensures p != filename
  {
    filename + "." + suffix
  }

  /** MetaIOOggVorbisComment::write as written: after the temporary file is
      renamed over the original, the same rename is attempted a second
      time, and its failure is taken for the failure of the write. */
  function WriteAsWritten(m: Option<Metadata>, exclusive: bool, io: WriteIo): WriteResult {
    match m
    case None => WriteResult(false, io.existing)
    case Some(md) =>
      match Prepared(md, exclusive, io)
      case None => WriteResult(false, io.existing)
      case Some(list) =>
        var temp := TempPath(md.filename, io.tempSuffix);
        var fs := map[md.filename := io.existing, temp := list];
        match Rename(fs, temp, md.filename, io.renameAllowed)
        case None => WriteResult(false, io.existing)
        case Some(moved) =>
          match Rename(moved, temp, md.filename, io.renameAllowed)
          // the second rename would leave `list` under the file name
          case Some(again) => WriteResult(true, list)
          case None => WriteResult(false, moved[md.filename])
  }

  /** The as-written write never reports success. */
  lemma WriteAsWrittenNeverSucceeds(m: Option<Metadata>, exclusive: bool, io: WriteIo)
    ensures !WriteAsWritten(m, exclusive, io).reported
  {
  }

  /** ... although, whenever every step succeeds, the new comments are in
      place. */
  lemma WriteAsWrittenStoresAnyway(m: Metadata, exclusive: bool, io: WriteIo)
    requires Prepared(m, exclusive, io).Some? && io.renameAllowed
    ensures WriteAsWritten(Some(m), exclusive, io)
      == WriteResult(false, Prepared(m, exclusive, io).value)
  {
  }

  /** A concrete run: a file with one comment, every step succeeding. */
  lemma WriteAsWrittenExample()
    ensures var m := Metadata("a.ogg", "A", "", "T", "", 0, 0, 0);
      var io := WriteIo(true, 3, "Xy12Z9", true, true, ["COMMENT=c"], true, true);
      WriteAsWritten(Some(m), false, io) == WriteResult(false, ["COMMENT=c", "ARTIST=A", "TITLE=T"])
  {
    var m := Metadata("a.ogg", "A", "", "T", "", 0, 0, 0);
    var io := WriteIo(true, 3, "Xy12Z9", true, true, ["COMMENT=c"], true, true);
    ExampleRewrite(m);
    WriteAsWrittenStoresAnyway(m, false, io);
  }

  lemma ExampleKeeps()
    ensures KeepUnmanaged(["COMMENT=c"]) == ["COMMENT=c"]
  {
    OtherTagKept("c");
    assert "COMMENT=" + "c" == "COMMENT=c";
    assert ["COMMENT=c"][1..] == [];
  }

  lemma ExampleManaged(m: Metadata)
    requires m == Metadata("a.ogg", "A", "", "T", "", 0, 0, 0)
    ensures ManagedEntries(m) == ["ARTIST=A", "TITLE=T"]
  {
    var f := ManagedFields(m);
    assert f[4..][1..] == [];
    assert EntriesOf(f[4..]) == [];
    assert f[3..][1..] == f[4..];
    assert EntriesOf(f[3..]) == [];
    assert f[2..][1..] == f[3..];
    assert EntriesOf(f[2..]) == [];
    assert f[1..][1..] == f[2..];
    assert TagEntry("TITLE", "T") == "TITLE=T";
    assert EntriesOf(f[1..]) == ["TITLE=T"];
    assert f[1..] == f[1..];
    assert TagEntry("ARTIST", "A") == "ARTIST=A";
  }

  lemma ExampleRewrite(m: Metadata)
    requires m == Metadata("a.ogg", "A", "", "T", "", 0, 0, 0)
    ensures RawVorbisComment(Some(m), Some(["COMMENT=c"])).value == ["COMMENT=c", "ARTIST=A", "TITLE=T"]
  {
    ExampleKeeps();
    ExampleManaged(m);
    RewriteParts(m, ["COMMENT=c"], ["COMMENT=c"], ["ARTIST=A", "TITLE=T"]);
  }

  lemma RewriteParts(m: Metadata, existing: seq<string>, kept: seq<string>, managed: seq<string>)
    requires KeepUnmanaged(existing) == kept && ManagedEntries(m) == managed
    ensures RawVorbisComment(Some(m), Some(existing)).value == kept + managed
  {
  }

  /** write with the rename attempted once: success exactly when every
      step succeeds, and then the original path holds the rewritten
      comments; otherwise it keeps the old ones. */
  function WriteFile(m: Option<Metadata>, exclusive: bool, io: WriteIo): (r: WriteResult)
    ensures r.reported <==> m.Some? && Prepared(m.value, exclusive, io).Some? && io.renameAllowed
    ensures r.reported ==> r.stored == RawVorbisComment(m, Some(if exclusive then [] else io.existing)).value
    ensures !r.reported ==> r.stored == io.existing
  {
    match m
    case None => WriteResult(false, io.existing)
    case Some(md) =>
      match Prepared(md, exclusive, io)
      case None => WriteResult(false, io.existing)
      case Some(list) =>
        var temp := TempPath(md.filename, io.tempSuffix);
        var fs := map[md.filename := io.existing, temp := list];
        match Rename(fs, temp, md.filename, io.renameAllowed)
        case None => WriteResult(false, io.existing)
        case Some(moved) => WriteResult(true, moved[md.filename])
  }

  /** An exclusive write leaves only managed tags; a non-exclusive one
      keeps every existing entry the rewrite preserves. */
  lemma WriteFileExclusive(m: Metadata, exclusive: bool, io: WriteIo)
    requires WriteFile(Some(m), exclusive, io).reported
    ensures var stored := WriteFile(Some(m), exclusive, io).stored;
      && (exclusive ==> AllManaged(stored))
      && (!exclusive ==> forall e :: e in io.existing && Preserved(e) ==> e in stored)
  {
    if exclusive {
      ExclusiveRewriteOnlyManaged(m);
    } else {
      forall e | e in io.existing && Preserved(e)
        ensures e in WriteFile(Some(m), exclusive, io).stored
      {
        RewriteMembers(m, io.existing, e);
      }
    }
  }
}

=== FILE: wrappers.dfy ===
/** Optional values, used wherever the original code passes a possibly-null
    pointer or a possibly-empty setting. */
module Wrappers {

  datatype Option<+T> = None | Some(value: T) {

    /** Returns the value in Some, or the given default for None. */
    function GetOr(default: T): T {
      match this
      case Some(v) => v
      case None => default
    }
  }
}
